=== FILE: README.md ===
# A verified model of a terminal password vault

The vault keeps a list of accounts: service, description, notes, user and
password. It stores them as JSON, encrypted, in a file named `accounts`:

- on Linux the cipher is AES-GCM, keyed by the SHA-256 digest of
  `/etc/machine-id`;
- on Windows it is DPAPI.

A terminal UI shows the accounts as a table with a "New" placeholder in
row 0. There you open, edit, save and delete records. New passwords are
generated from a weighted alphabet and screened against the "Have I Been
Pwned" range API. Only a five-character prefix of the password's SHA-1 hash
leaves the machine.

This Dafny project models that core:

| module | models |
|---|---|
| `Results` | `Option`, `Result` and the faults the program panics on |
| `Bytes`, `Files` | byte buffers, `zero`, and `readFile` (a missing file reads as empty) |
| `Strconv` | `strconv.ParseInt`/`Atoi` with their errors dropped, `fmt.Sprint` of an index, Go's `uint32(int)` conversion |
| `Text`, `Hex` | `strings.Index/Split/ToUpper/TrimSpace` and `hex.EncodeToString` |
| `Breach` | `isPwValid` as written, and `CheckBreach`, a three-way check that separates errors from answers |
| `Generator` | the alphabet, `generatePwInternal`, `generatePw` as written, and a re-checking generator |
| `Cipher` | `linuxGetKey`, `encrypt`, `decrypt`: nonce framing, the length check, buffer erasure; DPAPI as a second backend |
| `Store` | `getAllAccounts` and `saveAccountsToDisk` |
| `Editor` | `setupHeadless`'s collection and rows, and the collection-editing branches of `model.Update` |

Inputs and parameters stand in for the foreign pieces:

- SHA-1, SHA-256, AES-GCM, DPAPI, `encoding/json`, the HTTP GET and the
  random draws are function-valued parameters or inputs.
- What a caller needs of them is written as a predicate and required where
  it is used:
  - `Cipher.AeadSound`: Open undoes Seal, a box is the plaintext plus a
    16-byte tag, and whatever opens was sealed;
  - `Cipher.DpapiSound`;
  - `Store.JsonRoundTrips`.
- What os.ReadFile observed is a `Files.FileRead` value.

Every panic of the Go program inside the modelled operations is an `Err`
value, and a loop that never ends is a `Spins` value. The state of the UI is
a `Editor.Ui` value, and one key press is one `Editor.Step`. A step takes
the results of password generation and saving as given, so it never panics
or spins itself (see "## Left out").

## Model

| member | source | states |
|---|---|---|
| Bytes.Zero | src/global.go:74-80 | afterwards every byte of the buffer is 0 |
| Files.ReadFile | src/global.go:201-211 | a missing file reads as empty, any other read error is a failure, otherwise the contents |
| Strconv.RowIdRoundTrip | src/headless.go:197 | a row ID printed from index n parses back to n when n fits 32 bits, and never to more than n |
| Strconv.CountsThatReadAsZero | src/global.go:129-132 | the counts "0", "" and "many" all become breach count 0, and "-5" wraps to 4294967291 |
| Strconv.WrappedCountReadsAsZero | src/global.go:129-132 | a listed count of 4294967296 becomes breach count 0 |
| Text.Split | src/global.go:124-127 | joining the parts with the separator gives the input back, no part contains it, and there is more than one part exactly when it occurs |
| Text.SplitOnCharHasTwoParts | src/global.go:127-129 | splitting at ':' gives a second part exactly when the entry contains ':' |
| Hex.HashHexFacts | src/global.go:107 | the hash text is 2 upper-case hex characters per digest byte and decodes back to the digest |
| Breach.RangeQuery | src/global.go:107-108 | prefix and suffix are 5 and 35 upper-case hex characters, and together they are the whole hash text |
| Breach.OnlyPrefixIsSent | src/global.go:110 | the request URL is the range endpoint plus the 5-character prefix, and the verdict depends on nothing but the answer to that URL |
| Breach.ScanEntries | src/global.go:124-134 | the scan stops at the first entry without ':' or the first whose key is the suffix, and reports no match only when every entry passed |
| Breach.IsPwValid | src/global.go:96-137 | (false, 0) for a failed request, a non-200 status or an unreadable body; (true, 0) exactly when no entry matches; otherwise the first match's count as uint32 of Atoi; a panic exactly when an entry before any match lacks ':' |
| Breach.CheckBreach | src/global.go:82-95 | failures are Indeterminate; Clean exactly when the suffix is absent; Breached(n) exactly when the first matching entry carries the positive decimal count n |
| Breach.CheckBreachAgreesOnClean | src/global.go:131-136 | the three-way check is Clean exactly when isPwValid returns (true, 0) |
| Breach.CheckBreachAgreesOnBreach | src/global.go:129-133 | every breach the three-way check reports with a count below 2^32 is the one isPwValid reports; larger counts wrap in isPwValid |
| Breach.AmbiguousZeroVerdict | src/global.go:91-93 | a listed suffix with count 0 yields the same (false, 0) as a failed connection |
| Breach.EmptyBodyPanics | src/global.go:124-129 | an empty 200 body makes isPwValid panic on split[1] |
| Generator.CharsSpellAlphabet | src/global.go:140-155 | the bytes of `chars` are the ASCII codes of the alphabet, character by character |
| Generator.AlphabetWeights | src/global.go:140-155 | `chars` has 104 bytes: each letter has weight 1, each digit weight 3, each of ?+=!&/-_<>| weight 2, nothing else |
| Generator.GeneratePwInternal | src/global.go:154-170 | the candidate has 10 to 30 bytes and byte i is chars at the i-th draw |
| Generator.FillFrom | src/global.go:162-167 | the filled buffer has one byte per draw, and byte i is the alphabet's byte at the i-th draw |
| Generator.CandidateBytesFromAlphabet | src/global.go:162-167 | every candidate byte is a letter, a digit or one of the specials |
| Generator.AsWrittenLengthExceedsDoc | src/global.go:157-160 | candidate lengths run from 10 to 30, and a length draw of 20 exceeds the documented maximum of 20 |
| Generator.IntendedLengthWithinDoc | src/global.go:149 | with 11 length draws every length lies in 10..20 and 20 is reached |
| Generator.GeneratePwIntended | src/global.go:149-170 | with the length drawn below 11 the candidate has 10 to 20 bytes, as documented, and byte i is chars at the i-th draw |
| Generator.RetryLoopNeverExits | src/global.go:180-183 | an entered retry loop never exits, however many candidates it draws; an unentered one keeps the first |
| Generator.GeneratePw | src/global.go:176-190 | a (true, _) verdict returns the candidate, (false, 0) returns an empty password, any other count spins, and a panic propagates |
| Generator.GenerateRechecked | src/global.go:172-175 | returns the first clean candidate after only breached ones, stops at the first indeterminate check, and runs out only when every candidate was breached |
| Cipher.DeriveKey | src/linux_impl.go:14-23 | the key is SHA-256 of the machine-id, of nothing if the file is missing, and a failure if it is unreadable |
| Cipher.Encrypt | src/linux_impl.go:36-56 | on Linux the blob is the nonce followed by Seal of the data under the derived key, and it fails only when the key cannot be read; with DPAPI it is the protected data, or ProtectFailed |
| Cipher.Decrypt | src/linux_impl.go:69-94 | key failure first, then a blob shorter than 12 bytes is refused, then Open on the split blob: its plaintext is returned when it opens, an authentication error when it does not; DPAPI failures are UnprotectFailed |
| Cipher.EncryptDecrypt | src/linux_impl.go:36-94 | decrypt of an encrypted blob returns the plaintext, the empty one included, on both backends |
| Cipher.DecryptOnlyGenuine | src/linux_impl.go:84-86 | whatever decrypts is exactly the encryption of the plaintext under the blob's own nonce |
| Cipher.LinuxGetKey | src/linux_impl.go:14-23 | returns the derived key; the machine-id buffer is a new buffer as long as the file and is zero afterwards |
| Cipher.EncryptBuffer | src/linux_impl.go:36-56 | returns a new buffer holding the blob, or the fault Encrypt gives; the new 32-byte key buffer, the new 12-byte nonce buffer and the caller's plaintext are zero afterwards |
| Cipher.DecryptBuffer | src/linux_impl.go:69-94 | returns a new buffer holding the plaintext, or the fault Decrypt gives; the new 32-byte key buffer and the caller's blob are zero afterwards |
| Store.Load | src/global.go:32-48 | an absent or empty file is the empty collection; an unreadable file is ReadFailed; a decrypt failure propagates with its own fault; otherwise the unmarshalled records |
| Store.Save | src/global.go:52-58 | on Linux the file is the nonce followed by the sealed JSON, and saving fails only when the key cannot be read; with DPAPI it is the protected JSON |
| Store.SaveLoadRoundTrip | src/global.go:52-64 | loading the saved file gives back the same records in the same order |
| Store.EmptyVaultSkipsDecrypt | src/global.go:35-38 | an empty vault loads as empty although decrypting it would fail |
| Store.UnmarshalErrorIgnored | src/global.go:42 | a JSON decoding error still loads whatever records were decoded |
| Store.GetAllAccounts | src/global.go:32-48 | loads what Load gives; the new buffers for the file contents and for the decrypted JSON have their lengths and are zero afterwards |
| Store.SaveAccountsToDisk | src/global.go:52-64 | writes what Save gives; the new buffers for the JSON and for the blob have their lengths and are zero afterwards |
| Store.WriteFileRel | src/global.go:219-225 | writes the buffer's contents, then zeroes it |
| Editor.RowsOf | src/headless.go:515-524 | one row per record; row k has ID k in decimal and record k's service, description and notes |
| Editor.RowIndex | src/headless.go:197 | the index read from the selected row never exceeds the cursor, and equals it below 2^31 |
| Editor.Setup | src/headless.go:501-506 | the placeholder followed by the loaded records in order, table focused on row 0 |
| Editor.Delete | src/headless.go:194-240 | on row 0 the record is closed and nothing is deleted or persisted; row i loses exactly record i, keeps the rest in order and persists everything after the placeholder |
| Editor.Save | src/headless.go:242-297 | with nothing open, nothing happens; on a record, its five fields become the inputs; on the placeholder, one record is appended exactly when service and password are non-empty; the rest is persisted and the record closed; the cursor, inputs, echo and lock are kept |
| Editor.SelectOrNext | src/headless.go:316-375 | opens the row's record with its fields (blank for the placeholder) and focus 0, or moves focus to (focus + 1) mod 5 keeping the inputs; the collection, cursor, echo and lock are kept either way |
| Editor.Back | src/headless.go:182-192 | closes the record and focuses the table, keeping the collection, cursor, inputs, echo and lock |
| Editor.ToggleBlur | src/headless.go:93-173 | flips the lock; locking takes keys from the table and gives them to the open record's input, and unlocking gives them back to the table when no record is open |
| Editor.ToggleEcho | src/headless.go:175-180 | switches the password input between shown and masked, nothing else |
| Editor.NewPassword | src/headless.go:88-91 | the password input takes the generated password, nothing else changes |
| Editor.CopyPassword | src/headless.go:299-307 | copies the stored password of the selected row or of the open record, never the input |
| Editor.PassThrough | src/headless.go:402-423 | a key no branch took moves the focused table's cursor, within range, or edits the focused input of an open record, and changes nothing else |
| Editor.Step | src/headless.go:82-376 | every reachable state stays reachable (placeholder at 0, rows rebuilt, cursor and focus in range); only Delete and Save persist, always the records after the placeholder; only an enabled Quit exits |
| Editor.PersistThenRestart | src/headless.go:266-267 | saving the records after the placeholder of a reachable state, which is what Step persists, and restarting from that file shows the same collection again |
| Editor.BlurTwiceRestores | src/headless.go:93-173 | locking and unlocking restores the state exactly |
| Editor.ShowPwTwiceRestores | src/headless.go:175-180 | showing and hiding the password restores the state exactly |
| Editor.FiveNextsCycle | src/headless.go:343 | five Next presses on an open record return focus to where it started |
| Editor.LockedKeysAreInert | src/headless.go:123-140 | while locked, Quit, NewPw, ShowPw, Back, Save, CopyPw and Select change nothing |
| Editor.OpenThenSaveKeepsRecord | src/headless.go:249-254 | opening a record and saving it unedited writes back the same collection |

## Left out

- Cryptography and encoding internals are abstract functions with the
  properties stated above:
  - AES-GCM (NIST SP 800-38D);
  - SHA-1 and SHA-256 (FIPS 180-4);
  - DPAPI;
  - `encoding/json`.
- I/O is an input or an output value, not an action:
  - the HTTP request;
  - `os.ReadFile`, `os.WriteFile`, `os.Getwd` and the file mode 0640.
- `runtime.KeepAlive` and `runtime.GC` are not modelled. They guard against
  compiler optimisations, which Dafny has no counterpart for.
- Breach.IsPwValid: the branch for an error from the SHA-1 writer
  (src/global.go:103-105) is not modelled, because hash.Hash.Write never
  returns one. `h.Reset` and closing the body are left out too.
- Generator.GeneratePwInternal: errors of crypto/rand are not modelled. The
  draws are inputs within their bounds.
- Generator.GeneratePw: the zeroing of rejected candidates is not stated.
  The loop that does it never terminates (see Findings).
- Cipher.EncryptBuffer: errors from crypto/rand, aes.NewCipher and
  cipher.NewGCM are not modelled. The nonce is an input, and a 32-byte key
  is always accepted.
- Cipher.DecryptBuffer: buffers are promised to be zero only on success,
  because on failure the Go code panics before it zeroes them.
- Store.SaveAccountsToDisk: the outcome of the write is not modelled,
  because saveAccountsToDisk ignores WriteFileRel's error. json.Marshal
  cannot fail on records made of strings.
- Store.WriteFileRel: always reports the bytes written. The error
  os.WriteFile can return is not modelled, because its only caller,
  saveAccountsToDisk, ignores it.
- Editor.Delete: afterwards the cursor is only promised to stay in range,
  on row 0 as well as after a deletion. Either way the table is focused
  when the branch ends, so the same ctrl+d key then reaches it as its
  half-page-down binding. That move is not modelled: on row 0 the cursor
  stays where it was.
- Editor.Step: the table's cursor is kept in range by the table widget's
  SetRows, which is assumed here, not modelled.
- Editor.Step: the table's movement keys are summarised as `Navigate(row)`,
  and edits of the focused input as `Edit(value)`. A key of a disabled
  binding that reaches the input as text is not modelled separately.
- Editor.NewPassword: the zeroing of the generated buffer after it is copied
  into the input is not stated.
- Editor.RowIndex: with more than 2^31 records the parsed index saturates
  and names the wrong record. No invariant rules this out; the contract
  only bounds the index by the cursor.
- Cipher.LinuxGetKey, Cipher.EncryptBuffer, Cipher.DecryptBuffer,
  Store.GetAllAccounts and Store.SaveAccountsToDisk: a zeroed buffer is tied
  to what it held only by being new and having that content's length. The
  model keeps no history of a buffer's contents.
- Bytes.AsString: bytes from 0x80 up become one character each. Go would
  decode them as UTF-8. Generated passwords are ASCII.
- Editor.NewPassword: the key carries a password that generatePw has
  already returned. generatePw's spin on a first breached candidate and its
  panic on a malformed answer (both modelled in `Generator.GeneratePw`) are
  not composed into `Editor.Step`. In the program, that Update never
  returns.
- Editor.Step: Delete and Save persist through saveAccountsToDisk, which
  panics when /etc/machine-id is unreadable (`Store.Save` gives
  `Err(ReadFailed)` there). Step reports the `Persist` effect and does not
  compose that panic.
- Rendering is not modelled: `View`, help key maps, styles, window-size
  arithmetic, the clipboard write itself (a `Copied` effect stands for it),
  and the `time.AfterFunc` banner timers (concurrent writes to globals).
- src/win_impl.go is modelled only as the abstract DPAPI backend of
  `Cipher.Backend`.

## Findings

| source | as written | input that shows it | evidently intended | confidence | as-written member | corrected member |
|---|---|---|---|---|---|---|
| src/global.go:157-160 | length draw `rand.Int(…, 21) + 10` gives 10 to 30 characters | a length draw of 20 gives a 30-character password, although line 149 promises at most 20 | a draw bound of 11, giving 10 to 20 | not executed; high | Generator.AsWrittenLengthExceedsDoc | Generator.GeneratePwIntended |
| src/global.go:180-183 | the loop guard reads `b, n`, which the body never reassigns | a first candidate with verdict (false, 1) makes the loop draw forever | re-check each new candidate and stop on an error | not executed; high | Generator.RetryLoopNeverExits | Generator.GenerateRechecked |
| src/global.go:129-132 | the Atoi error is dropped and the count converted with uint32 | a 200 body `SUFFIX:0` gives (false, 0), the documented error signal | report an unreadable or zero count as an error, distinct from an answer | not executed; medium | Breach.AmbiguousZeroVerdict | Breach.CheckBreach |
| src/global.go:124-129 | `split[1]` on an entry without ':' | a 200 response with an empty body panics | treat a malformed line as a failed lookup | not executed; medium | Breach.EmptyBodyPanics | Breach.CheckBreach |

=== FILE: breach.dfy ===
/** The breach verdict of `isPwValid` (src/global.go): the SHA-1 hash of the
    candidate is rendered as upper-case hex, its first five characters are
    sent to the k-anonymity range endpoint, and the CRLF-separated
    `SUFFIX:COUNT` lines of the answer are scanned for the remaining 35.
    SHA-1 and the HTTP GET are parameters of the model. */
module Breach {
  import opened Results
  import opened Bytes
  import Strconv
  import Text
  import Hex

  const DigestSize: nat := 20      // sha1.Size
  const PrefixLength: nat := 5
  const RangeEndpoint: string := "https://api.pwnedpasswords.com/range/"
  const LineBreak: string := "\r\n"
  const StatusOK: int := 200

  type Digest = d: Bytes | |d| == DigestSize witness seq(20, _ => 0)

  /** What io.ReadAll made of the response body. */
  datatype Body = BodyUnreadable | Body(text: string)

  /** What http.Get returned for the range URL. */
  datatype HttpOutcome = TransportFailed | Response(status: int, body: Body)

  /** The two results of isPwValid: "valid" and the breach count. */
  datatype Verdict = Verdict(valid: bool, count: Strconv.uint32)

  /** The hash text split into the range prefix (sent) and the suffix (kept). */
  function RangeQuery(digest: Digest): (q: (string, string))
    ensures |q.0| == PrefixLength && |q.1| == 2 * DigestSize - PrefixLength
    ensures q.0 + q.1 == Hex.HashHex(digest)
    ensures Hex.IsUpperHex(q.0) && Hex.IsUpperHex(q.1)
    ensures Hex.DecodeUpper(q.0 + q.1) == Some(digest)
  {
    var h := Hex.HashHex(digest);
    Hex.HashHexFacts(digest);
    var prefix, suffix := h[..PrefixLength], h[PrefixLength..];
    assert prefix + suffix == h;
    Hex.UpperHexSlices(h, PrefixLength);
    (prefix, suffix)
  }

  function RangeUrl(prefix: string): string {
    RangeEndpoint + prefix
  }

  /** The single request isPwValid makes for `pw`. */
  function Lookup(pw: Bytes, sha1: Bytes -> Digest, get: string -> HttpOutcome): HttpOutcome {
    get(RangeUrl(RangeQuery(sha1(pw)).0))
  }

  /** A lookup that produced a body to scan: status 200 and a readable body. */
  predicate Served(o: HttpOutcome) {
    o.Response? && o.status == StatusOK && o.body.Body?
  }

  /** strings.SplitSeq(body, "\r\n"). */
  function Entries(text: string): seq<string> {
    Text.Split(text, LineBreak)
  }

  /** split[0] of strings.Split(entry, ":"): the text before the first ':'. */
  function EntryKey(entry: string): string {
    Text.Split(entry, ":")[0]
  }

  /** split[1] of strings.Split(entry, ":"): the text between the first and
      the second ':'. */
  function EntryCount(entry: string): string
    requires ':' in entry
  {
    Text.SplitOnCharHasTwoParts(entry, ':');
    Text.Split(entry, ":")[1]
  }

  /** Every entry before position j has a ':' and a key other than `suffix`:
      the scan gets past all of them. */
  predicate Passes(entries: seq<string>, suffix: string, j: int) {
    forall k :: 0 <= k < j && k < |entries| ==> ':' in entries[k] && EntryKey(entries[k]) != suffix
  }

  /** Entry j is the first one the scan stops at because it matches. */
  predicate FirstMatch(entries: seq<string>, suffix: string, j: int) {
    0 <= j < |entries| && Passes(entries, suffix, j) && ':' in entries[j] && EntryKey(entries[j]) == suffix
  }

  /** Entry j is the first one the scan stops at because split[1] does not exist. */
  predicate FirstMalformed(entries: seq<string>, suffix: string, j: int) {
    0 <= j < |entries| && Passes(entries, suffix, j) && ':' !in entries[j]
  }

  datatype Scan = NoMatch | Match(at: nat) | Malformed(at: nat)

  function ScanFrom(entries: seq<string>, suffix: string, from: nat): (r: Scan)
    requires from <= |entries| && Passes(entries, suffix, from)
    ensures r.NoMatch? <==> Passes(entries, suffix, |entries|)
    ensures r.Match? ==> from <= r.at && FirstMatch(entries, suffix, r.at)
    ensures r.Malformed? ==> from <= r.at && FirstMalformed(entries, suffix, r.at)
    decreases |entries| - from
  {
    if from == |entries| then NoMatch
    else
      var split := Text.Split(entries[from], ":");
      Text.SplitOnCharHasTwoParts(entries[from], ':');
      if |split| < 2 then Malformed(from)
      else if split[0] == suffix then Match(from)
      else ScanFrom(entries, suffix, from + 1)
  }

  /** The loop over the entries: stop at the first line without ':' (the
      index expression split[1] panics) or at the first line whose key is
      the suffix; run off the end otherwise. */
  function ScanEntries(entries: seq<string>, suffix: string): (r: Scan)
    ensures r.NoMatch? <==> Passes(entries, suffix, |entries|)
    ensures r.Match? ==> FirstMatch(entries, suffix, r.at)
    ensures r.Malformed? ==> FirstMalformed(entries, suffix, r.at)
  {
    ScanFrom(entries, suffix, 0)
  }

  /** `isPwValid` as written. (false, 0) is returned on every failure of the
      lookup; the scan ends in a panic on an entry without ':'. */
  function IsPwValid(pw: Bytes, sha1: Bytes -> Digest, get: string -> HttpOutcome): (r: Result<Verdict, Fault>)
    ensures !Served(Lookup(pw, sha1, get)) ==> r == Ok(Verdict(false, 0))
    ensures r == Ok(Verdict(true, 0)) <==>
      Served(Lookup(pw, sha1, get))
      && Passes(Entries(Lookup(pw, sha1, get).body.text), RangeQuery(sha1(pw)).1, |Entries(Lookup(pw, sha1, get).body.text)|)
    ensures r.Ok? && r.value.valid ==> r.value.count == 0
    ensures r.Ok? && !r.value.valid && Served(Lookup(pw, sha1, get)) ==>
      var entries := Entries(Lookup(pw, sha1, get).body.text);
      (exists j :: FirstMatch(entries, RangeQuery(sha1(pw)).1, j) && r.value.count == Strconv.ToUint32(Strconv.Atoi(EntryCount(entries[j]))))
    ensures r.Err? <==>
      Served(Lookup(pw, sha1, get))
      && exists j :: FirstMalformed(Entries(Lookup(pw, sha1, get).body.text), RangeQuery(sha1(pw)).1, j)
  {
    var suffix := RangeQuery(sha1(pw)).1;
    match Lookup(pw, sha1, get)
    case TransportFailed => Ok(Verdict(false, 0))
    case Response(status, body) =>
      if status != StatusOK then Ok(Verdict(false, 0))
      else match body
        case BodyUnreadable => Ok(Verdict(false, 0))
        case Body(text) =>
          var entries := Entries(text);
          match ScanEntries(entries, suffix)
          case Malformed(_) => Err(IndexOutOfRange)
          case Match(j) => Ok(Verdict(false, Strconv.ToUint32(Strconv.Atoi(EntryCount(entries[j])))))
          case NoMatch => Ok(Verdict(true, 0))
  }

  /** The request depends on the password only through the five-character
      prefix: two services that answer that one URL alike give the same
      verdict, and the URL carries nothing but the prefix. */
  lemma OnlyPrefixIsSent(pw: Bytes, sha1: Bytes -> Digest, get1: string -> HttpOutcome, get2: string -> HttpOutcome)
    requires get1(RangeUrl(RangeQuery(sha1(pw)).0)) == get2(RangeUrl(RangeQuery(sha1(pw)).0))
    ensures IsPwValid(pw, sha1, get1) == IsPwValid(pw, sha1, get2)
    ensures RangeUrl(RangeQuery(sha1(pw)).0) == RangeEndpoint + Hex.HashHex(sha1(pw))[..PrefixLength]
  {
  }

  /** There is at most one first match, and when there is one the scan
      stops there. */
  lemma ScanStopsAtFirstMatch(entries: seq<string>, suffix: string)
    ensures forall j :: FirstMatch(entries, suffix, j) ==> ScanEntries(entries, suffix) == Match(j)
  {
  }

  /** The three outcomes a breach check is meant to tell apart. */
  datatype Breach = Clean | Breached(count: nat) | Indeterminate

  /** The verdict with the error signal separated from the answer: a lookup
      failure, a malformed line, or a matching line whose count is not a
      positive decimal number gives Indeterminate, never Clean or a count. */
  function CheckBreach(pw: Bytes, sha1: Bytes -> Digest, get: string -> HttpOutcome): (r: Breach)
    ensures !Served(Lookup(pw, sha1, get)) ==> r == Indeterminate
    ensures r == Clean <==>
      Served(Lookup(pw, sha1, get))
      && Passes(Entries(Lookup(pw, sha1, get).body.text), RangeQuery(sha1(pw)).1, |Entries(Lookup(pw, sha1, get).body.text)|)
    ensures r.Breached? ==>
      var entries := Entries(Lookup(pw, sha1, get).body.text);
      r.count > 0 && Served(Lookup(pw, sha1, get))
      && (exists j :: FirstMatch(entries, RangeQuery(sha1(pw)).1, j) && Strconv.ParseDecimal(EntryCount(entries[j])) == Some(r.count as int))
    ensures Served(Lookup(pw, sha1, get)) ==>
      var entries := Entries(Lookup(pw, sha1, get).body.text);
      forall j :: FirstMatch(entries, RangeQuery(sha1(pw)).1, j)
        && Strconv.ParseDecimal(EntryCount(entries[j])).Some? && Strconv.ParseDecimal(EntryCount(entries[j])).value > 0
        ==> r == Breached(Strconv.ParseDecimal(EntryCount(entries[j])).value)
  {
    var suffix := RangeQuery(sha1(pw)).1;
    var o := Lookup(pw, sha1, get);
    if !Served(o) then Indeterminate
    else
      var entries := Entries(o.body.text);
      ScanStopsAtFirstMatch(entries, suffix);
      match ScanEntries(entries, suffix)
      case Malformed(_) => Indeterminate
      case NoMatch => Clean
      case Match(j) =>
        match Strconv.ParseDecimal(EntryCount(entries[j]))
        case Some(n) => if n > 0 then Breached(n) else Indeterminate
        case None => Indeterminate
  }

  /** The two checks agree on what a clean password is. */
  lemma CheckBreachAgreesOnClean(pw: Bytes, sha1: Bytes -> Digest, get: string -> HttpOutcome)
    ensures CheckBreach(pw, sha1, get) == Clean <==> IsPwValid(pw, sha1, get) == Ok(Verdict(true, 0))
  {
  }

  /** Every breach the three-way check reports with a count that fits in 32
      bits is the breach isPwValid reports. */
  lemma CheckBreachAgreesOnBreach(pw: Bytes, sha1: Bytes -> Digest, get: string -> HttpOutcome)
    ensures CheckBreach(pw, sha1, get).Breached? && CheckBreach(pw, sha1, get).count < 0x1_0000_0000 ==>
      IsPwValid(pw, sha1, get) == Ok(Verdict(false, CheckBreach(pw, sha1, get).count as Strconv.uint32))
  {
    var c := CheckBreach(pw, sha1, get);
    if c.Breached? && c.count < 0x1_0000_0000 {
      var n := c.count;
      var o := Lookup(pw, sha1, get);
      assert Served(o);
      var entries := Entries(o.body.text);
      var scan := ScanEntries(entries, RangeQuery(sha1(pw)).1);
      assert scan.Match?;
      var count := EntryCount(entries[scan.at]);
      assert Strconv.ParseDecimal(count) == Some(n as int);
      assert Strconv.Atoi(count) == n;
      assert Strconv.ToUint32(n) == n as Strconv.uint32;
    }
  }

  /** The suffix is hexadecimal, so it holds neither ':' nor '\r'. */
  lemma SuffixHasNoSeparators(digest: Digest)
    ensures ':' !in RangeQuery(digest).1 && '\r' !in RangeQuery(digest).1
  {
    var s := RangeQuery(digest).1;
    assert forall i :: 0 <= i < |s| ==> s[i] != ':' && s[i] != '\r';
  }

  /** A body holding the single line `KEY:0` is one entry whose key is KEY
      and whose count is "0". */
  lemma ZeroCountLine(key: string)
    requires ':' !in key && '\r' !in key
    ensures Entries(key + ":0") == [key + ":0"]
    ensures EntryKey(key + ":0") == key
    ensures ':' in key + ":0" && EntryCount(key + ":0") == "0"
  {
    var line := key + ":0";
    assert '\r' !in line;
    Text.IndexAbsent(line, LineBreak);
    assert ':' !in line[..|key|] && line[|key|] == ':' by {
      assert line[..|key|] == key;
    }
    Text.SplitOnCharHead(line, ':', |key|);
    Text.IndexAbsent("0", ":");
    assert line[|key| + 1..] == "0";
  }

  /** The ambiguity of the (false, 0) signal: a breach service that lists the
      candidate's suffix with count 0 yields exactly the verdict of a failed
      connection. */
  lemma AmbiguousZeroVerdict(pw: Bytes, sha1: Bytes -> Digest, get: string -> HttpOutcome)
    requires get(RangeUrl(RangeQuery(sha1(pw)).0)) == Response(StatusOK, Body(RangeQuery(sha1(pw)).1 + ":0"))
    ensures IsPwValid(pw, sha1, get) == IsPwValid(pw, sha1, _ => TransportFailed) == Ok(Verdict(false, 0))
    ensures CheckBreach(pw, sha1, get) == Indeterminate
  {
    var suffix := RangeQuery(sha1(pw)).1;
    SuffixHasNoSeparators(sha1(pw));
    ZeroCountLine(suffix);
    assert ScanEntries([suffix + ":0"], suffix) == Match(0);
    Strconv.CountsThatReadAsZero();
  }

  /** An empty body with status 200 is one entry without ':', so isPwValid
      indexes past the end of its split and panics; the three-way check
      calls it indeterminate. */
  lemma EmptyBodyPanics(pw: Bytes, sha1: Bytes -> Digest, get: string -> HttpOutcome)
    requires get(RangeUrl(RangeQuery(sha1(pw)).0)) == Response(StatusOK, Body(""))
    ensures IsPwValid(pw, sha1, get) == Err(IndexOutOfRange)
    ensures CheckBreach(pw, sha1, get) == Indeterminate
  {
    Text.IndexAbsent("", LineBreak);
    assert Entries("") == [""];
    assert FirstMalformed([""], RangeQuery(sha1(pw)).1, 0);
  }
}

=== FILE: bytes.dfy ===
/** Byte buffers and the secure-erasure discipline of `zero` (src/global.go). */
module Bytes {

  newtype byte = b: int | 0 <= b < 0x100

  type Bytes = seq<byte>

  /** Every byte of `s` is zero. */
  predicate IsZero(s: Bytes) {
    forall i :: 0 <= i < |s| ==> s[i] == 0
  }

  /** `zero`: overwrite every byte of the buffer with 0. The length of an
      array cannot change, so only the contents are stated. */
  method Zero(buf: array<byte>)
    modifies buf
    ensures IsZero(buf[..])
  {
    for i := 0 to buf.Length
      invariant forall j :: 0 <= j < i ==> buf[j] == 0
    {
      buf[i] := 0;
    }
  }

  /** A fresh buffer holding a copy of `s` (what os.ReadFile, make+copy or
      []byte(string) hand back). */
  method NewBuffer(s: Bytes) returns (buf: array<byte>)
    ensures fresh(buf)
    ensures buf[..] == s
  {
    buf := new byte[|s|](i requires 0 <= i < |s| => s[i]);
  }

  /** Every character of `s` fits in one byte. */
  predicate FitsBytes(s: string) {
    forall i :: 0 <= i < |s| ==> s[i] as int < 0x100
  }

  /** The bytes of a string whose characters are all below 256, one byte per
      character (Go's []byte of an ASCII string literal). */
  function AsciiBytes(s: string): (b: Bytes)
    requires FitsBytes(s)
    ensures |b| == |s|
    ensures forall i :: 0 <= i < |s| ==> b[i] as int == s[i] as int
  {
    seq(|s|, i requires 0 <= i < |s| => s[i] as int as byte)
  }

  /** Converting a concatenation converts each part. */
  lemma AsciiAppend(a: string, b: string)
    requires FitsBytes(a) && FitsBytes(b)
    ensures FitsBytes(a + b) && AsciiBytes(a + b) == AsciiBytes(a) + AsciiBytes(b)
  {
  }

  /** Go's string(b) for ASCII bytes: one character per byte. Bytes from
      0x80 up would be decoded as UTF-8 by Go; generated passwords never
      hold them. */
  function AsString(b: Bytes): (s: string)
    ensures |s| == |b|
    ensures forall i :: 0 <= i < |b| ==> s[i] as int == b[i] as int
  {
    seq(|b|, i requires 0 <= i < |b| => b[i] as int as char)
  }
}

/** Reading a file the way `readFile` does (src/global.go). The file system is
    not modelled: what os.ReadFile observed is an input. */
module Files {
  import opened Results
  import opened Bytes

  /** What os.ReadFile reports for a path. */
  datatype FileRead = Missing | Unreadable | Contents(data: Bytes)

  /** `readFile`: a missing file reads as empty, any other error aborts. */
  function ReadFile(f: FileRead): (r: Result<Bytes, Fault>)
    ensures r.Err? <==> f.Unreadable?
    ensures f.Missing? ==> r == Ok([])
    ensures f.Contents? ==> r == Ok(f.data)
  {
    match f
    case Missing => Ok([])
    case Unreadable => Err(ReadFailed)
    case Contents(data) => Ok(data)
  }
}

=== FILE: cipher.dfy ===
/** The encryption backends behind `encrypt` and `decrypt`.

    On Linux (src/linux_impl.go) the key is the SHA-256 digest of
    /etc/machine-id and the stored blob is the 12-byte nonce followed by the
    AES-GCM sealed box. On Windows (src/win_impl.go) both calls go to DPAPI.
    AES-GCM (NIST SP 800-38D), SHA-256 (FIPS 180-4) and DPAPI are abstract
    functions; the properties the model relies on are stated as predicates
    that callers must supply. The random nonce is an input. */
module Cipher {
  import opened Results
  import opened Bytes
  import Files

  /** gcm.NonceSize() for cipher.NewGCM: the standard 96-bit nonce. */
  const NonceSize: nat := 12
  /** The GCM authentication tag appended by Seal. */
  const TagSize: nat := 16
  /** A SHA-256 digest, and so an AES-256 key. */
  const KeySize: nat := 32

  type Key = k: Bytes | |k| == KeySize witness seq(32, _ => 0)
  type Nonce = n: Bytes | |n| == NonceSize witness seq(12, _ => 0)

  /** AES-GCM under one key size, with no additional data. */
  datatype Aead = Aead(seal: (Key, Nonce, Bytes) -> Bytes, open: (Key, Nonce, Bytes) -> Option<Bytes>)

  /** What an authenticated cipher guarantees: opening a sealed box gives the
      plaintext back, a box is the plaintext plus a tag, and whatever opens
      was sealed under that key and nonce. */
  ghost predicate AeadSound(g: Aead) {
    && (forall k, n, p :: g.open(k, n, g.seal(k, n, p)) == Some(p))
    && (forall k, n, p :: |g.seal(k, n, p)| == |p| + TagSize)
    && (forall k, n, c :: g.open(k, n, c).Some? ==> g.seal(k, n, g.open(k, n, c).value) == c)
  }

  datatype Backend =
    /** Linux: AES-GCM keyed by SHA-256 of what /etc/machine-id held. */
    | AesGcm(aead: Aead, sha256: Bytes -> Key, machineId: Files.FileRead)
    /** Windows: DPAPI's CryptProtectData / CryptUnprotectData. */
    | Dpapi(protect: Bytes -> Option<Bytes>, unprotect: Bytes -> Option<Bytes>)

  /** DPAPI hands back a non-empty blob that it can unprotect again. */
  ghost predicate DpapiSound(protect: Bytes -> Option<Bytes>, unprotect: Bytes -> Option<Bytes>) {
    forall p :: protect(p).Some? ==> |protect(p).value| > 0 && unprotect(protect(p).value) == Some(p)
  }

  ghost predicate Sound(b: Backend) {
    match b
    case AesGcm(aead, _, _) => AeadSound(aead)
    case Dpapi(protect, unprotect) => DpapiSound(protect, unprotect)
  }

  /** `linuxGetKey`: SHA-256 of the machine-id. A missing file reads as empty,
      so the key is then SHA-256 of nothing; an unreadable one panics. */
  function DeriveKey(sha256: Bytes -> Key, machineId: Files.FileRead): (r: Result<Key, Fault>)
    ensures r.Err? <==> machineId.Unreadable?
    ensures machineId.Missing? ==> r == Ok(sha256([]))
    ensures machineId.Contents? ==> r == Ok(sha256(machineId.data))
  {
    var mId :- Files.ReadFile(machineId);
    Ok(sha256(mId))
  }

  /** `encrypt`. On Linux the blob is the nonce followed by the sealed box
      (gcm.Seal(nonce, nonce, data, nil) appends the box to the nonce). */
  function Encrypt(b: Backend, nonce: Nonce, data: Bytes): (r: Result<Bytes, Fault>)
    ensures b.AesGcm? ==> (r.Err? <==> b.machineId.Unreadable?)
    ensures b.AesGcm? && r.Ok? ==> |r.value| >= NonceSize && r.value[..NonceSize] == nonce
    ensures b.AesGcm? && r.Ok? ==> r.value[NonceSize..] == b.aead.seal(DeriveKey(b.sha256, b.machineId).value, nonce, data)
    ensures b.Dpapi? ==> (r.Err? <==> b.protect(data).None?)
    ensures b.Dpapi? && r.Ok? ==> r.value == b.protect(data).value
    ensures r.Err? ==> r.error == (if b.AesGcm? then ReadFailed else ProtectFailed)
  {
    match b
    case AesGcm(aead, sha256, machineId) =>
      var key :- DeriveKey(sha256, machineId);
      Ok(nonce + aead.seal(key, nonce, data))
    case Dpapi(protect, _) =>
      (match protect(data)
       case None => Err(ProtectFailed)
       case Some(c) => Ok(c))
  }

  /** `decrypt`. On Linux the key is derived first, then a blob shorter than
      the nonce is refused before Open is reached, then the blob is split at
      NonceSize and a box that fails authentication is refused. */
  function Decrypt(b: Backend, blob: Bytes): (r: Result<Bytes, Fault>)
    ensures b.AesGcm? && b.machineId.Unreadable? ==> r == Err(ReadFailed)
    ensures b.AesGcm? && !b.machineId.Unreadable? && |blob| < NonceSize ==> r == Err(ShortCiphertext)
    ensures b.AesGcm? && r.Ok? ==> |blob| >= NonceSize
    ensures b.AesGcm? && r.Ok? ==> b.aead.open(DeriveKey(b.sha256, b.machineId).value, blob[..NonceSize], blob[NonceSize..]) == Some(r.value)
    ensures b.AesGcm? && !b.machineId.Unreadable? && |blob| >= NonceSize ==>
      (r == Err(AuthenticationFailed) <==> b.aead.open(DeriveKey(b.sha256, b.machineId).value, blob[..NonceSize], blob[NonceSize..]).None?)
    ensures (b.AesGcm? && !b.machineId.Unreadable? && |blob| >= NonceSize
             && b.aead.open(DeriveKey(b.sha256, b.machineId).value, blob[..NonceSize], blob[NonceSize..]).Some?) ==>
      r == Ok(b.aead.open(DeriveKey(b.sha256, b.machineId).value, blob[..NonceSize], blob[NonceSize..]).value)
    ensures b.Dpapi? ==> (r.Ok? <==> b.unprotect(blob).Some?)
    ensures b.Dpapi? && r.Err? ==> r.error == UnprotectFailed
    ensures b.Dpapi? && r.Ok? ==> r.value == b.unprotect(blob).value
  {
    match b
    case AesGcm(aead, sha256, machineId) =>
      var key :- DeriveKey(sha256, machineId);
      if |blob| < NonceSize then Err(ShortCiphertext)
      else
        var nonce: Nonce, encrypted := blob[..NonceSize], blob[NonceSize..];
        (match aead.open(key, nonce, encrypted)
         case None => Err(AuthenticationFailed)
         case Some(p) => Ok(p))
    case Dpapi(_, unprotect) =>
      match unprotect(blob)
      case None => Err(UnprotectFailed)
      case Some(p) => Ok(p)
  }

  /** Splitting a blob at NonceSize loses nothing: the nonce and the box
      concatenate back to the blob. */
  lemma SplitAtNonce(blob: Bytes)
    requires |blob| >= NonceSize
    ensures blob[..NonceSize] + blob[NonceSize..] == blob
    ensures |blob[..NonceSize]| == NonceSize
  {
  }

  /** decrypt(encrypt(p)) == p for every plaintext, the empty one included,
      as long as the key material does not change in between. */
  lemma EncryptDecrypt(b: Backend, nonce: Nonce, data: Bytes)
    requires Sound(b)
    requires Encrypt(b, nonce, data).Ok?
    ensures Decrypt(b, Encrypt(b, nonce, data).value) == Ok(data)
    ensures |Encrypt(b, nonce, data).value| > 0
  {
    var blob := Encrypt(b, nonce, data).value;
    if b.AesGcm? {
      var key := DeriveKey(b.sha256, b.machineId).value;
      assert blob == nonce + b.aead.seal(key, nonce, data);
      assert blob[..NonceSize] == nonce;
      assert blob[NonceSize..] == b.aead.seal(key, nonce, data);
    }
  }

  /** Only a genuine blob decrypts on Linux: whatever decrypts is exactly the
      encryption of the recovered plaintext under the blob's own nonce. */
  lemma DecryptOnlyGenuine(b: Backend, blob: Bytes)
    requires b.AesGcm? && AeadSound(b.aead)
    requires Decrypt(b, blob).Ok?
    ensures Encrypt(b, blob[..NonceSize], Decrypt(b, blob).value) == Ok(blob)
  {
    var key := DeriveKey(b.sha256, b.machineId).value;
    var nonce: Nonce := blob[..NonceSize];
    assert b.aead.seal(key, nonce, Decrypt(b, blob).value) == blob[NonceSize..];
    SplitAtNonce(blob);
  }

  /** `linuxGetKey` on buffers: the machine-id buffer, a new one as long as
      the file, is zeroed once it has been hashed. The buffer is returned so
      that its erasure can be stated. */
  method LinuxGetKey(sha256: Bytes -> Key, machineId: Files.FileRead) returns (r: Result<Key, Fault>, mId: array<byte>)
    ensures r == DeriveKey(sha256, machineId)
    ensures r.Ok? ==> fresh(mId) && mId.Length == (if machineId.Contents? then |machineId.data| else 0)
    ensures r.Ok? ==> IsZero(mId[..])
  {
    match Files.ReadFile(machineId)
    case Err(e) =>
      mId := new byte[0];
      r := Err(e);
    case Ok(contents) =>
      mId := NewBuffer(contents);
      var digest := sha256(mId[..]);
      Zero(mId);
      r := Ok(digest);
  }

  /** `encrypt` on buffers. On success the blob is a new buffer, and the key,
      the caller's plaintext and the nonce buffer are zero; the blob keeps its
      copy of the nonce because Seal appends to a full slice and so copies. */
  method EncryptBuffer(b: Backend, nonceDraw: Nonce, data: array<byte>)
      returns (r: Result<array<byte>, Fault>, key: array<byte>, nonce: array<byte>)
    modifies data
    ensures r.Err? <==> Encrypt(b, nonceDraw, old(data[..])).Err?
    ensures r.Err? ==> r.error == Encrypt(b, nonceDraw, old(data[..])).error
    ensures r.Ok? ==> fresh(r.value) && r.value[..] == Encrypt(b, nonceDraw, old(data[..])).value
    ensures r.Ok? && b.AesGcm? ==> fresh(key) && key.Length == KeySize && fresh(nonce) && nonce.Length == NonceSize
    ensures r.Ok? ==> IsZero(data[..]) && IsZero(key[..]) && IsZero(nonce[..])
  {
    match b
    case AesGcm(aead, sha256, machineId) =>
      var k, mId := LinuxGetKey(sha256, machineId);
      if k.Err? {
        key, nonce := new byte[0], new byte[0];
        r := Err(k.error);
        return;
      }
      key := NewBuffer(k.value);
      nonce := NewBuffer(nonceDraw);
      var keyValue: Key, nonceValue: Nonce := key[..], nonce[..];
      var encrypted := NewBuffer(nonce[..] + aead.seal(keyValue, nonceValue, data[..]));
      Zero(key);
      Zero(data);
      Zero(nonce);
      r := Ok(encrypted);
    case Dpapi(protect, _) =>
      key, nonce := new byte[0], new byte[0];
      match protect(data[..]) {
        case None =>
          r := Err(ProtectFailed);
        case Some(c) =>
          var encrypted := NewBuffer(c);
          Zero(data);
          r := Ok(encrypted);
      }
  }

  /** `decrypt` on buffers. On success the plaintext is a new buffer and the
      key and the caller's blob (which the nonce and box views share) are zero. */
  method DecryptBuffer(b: Backend, data: array<byte>) returns (r: Result<array<byte>, Fault>, key: array<byte>)
    modifies data
    ensures r.Err? <==> Decrypt(b, old(data[..])).Err?
    ensures r.Err? ==> r.error == Decrypt(b, old(data[..])).error
    ensures r.Ok? ==> fresh(r.value) && r.value[..] == Decrypt(b, old(data[..])).value
    ensures r.Ok? && b.AesGcm? ==> fresh(key) && key.Length == KeySize
    ensures r.Ok? ==> IsZero(data[..]) && IsZero(key[..])
  {
    match b
    case AesGcm(aead, sha256, machineId) =>
      var k, mId := LinuxGetKey(sha256, machineId);
      if k.Err? {
        key := new byte[0];
        r := Err(k.error);
        return;
      }
      key := NewBuffer(k.value);
      if data.Length < NonceSize {
        r := Err(ShortCiphertext);
        return;
      }
      var keyValue: Key, nonce: Nonce := key[..], data[..NonceSize];
      match aead.open(keyValue, nonce, data[NonceSize..]) {
        case None =>
          r := Err(AuthenticationFailed);
        case Some(p) =>
          var decrypted := NewBuffer(p);
          Zero(key);
          Zero(data);
          r := Ok(decrypted);
      }
    case Dpapi(_, unprotect) =>
      key := new byte[0];
      match unprotect(data[..])
      case None =>
        r := Err(UnprotectFailed);
      case Some(p) =>
        var decrypted := NewBuffer(p);
        Zero(data);
        r := Ok(decrypted);
  }
}

=== FILE: editor.dfy ===
/** The collection-editing part of the terminal UI (src/headless.go):
    `setupHeadless` puts a "New" placeholder record in front of the loaded
    accounts and shows one table row per record, and `model.Update` reacts
    to one key at a time. Rendering, styles, window sizes and timers are not
    part of this model; the text widgets are reduced to their values. */
module Editor {
  import opened Results
  import opened Bytes
  import Strconv
  import Files
  import Cipher
  import Store

  type Account = Store.Account

  /** The placeholder record at index 0: selecting it starts a new entry. */
  const Sentinel: Account := Store.Account("New", "New entry", "", "", "")

  /** The five inputs: service, description, notes, user, password. */
  const FieldCount: nat := 5

  /** A table row: the ID column and three columns of the record. */
  datatype Row = Row(id: string, service: string, description: string, notes: string)

  /** The row shown for record k. */
  function RowFor(k: nat, a: Account): Row {
    Row(Strconv.Itoa(k), a.service, a.description, a.notes)
  }

  /** Row k carries the ID `k` in decimal and the service, description and
      notes of record k, and there is one row per record. */
  predicate RowsMatch(accounts: seq<Account>, rows: seq<Row>) {
    |rows| == |accounts| && forall k :: 0 <= k < |rows| ==> rows[k] == RowFor(k, accounts[k])
  }

  /** The loop that rebuilds the rows after an edit, and the one in
      setupHeadless. */
  function RowsOf(accounts: seq<Account>): (rows: seq<Row>)
    ensures RowsMatch(accounts, rows)
  {
    if |accounts| == 0 then []
    else
      var k := |accounts| - 1;
      RowsOf(accounts[..k]) + [RowFor(k, accounts[k])]
  }

  /** How the password input shows its value. */
  datatype Echo = EchoNormal | EchoPassword

  /** The UI state that editing depends on.
      - accounts: the in-memory collection, placeholder first;
      - rows, cursor: the table's rows and selected row;
      - selected: index of the record `m.selected` points at, if any;
      - focus: which of the five inputs has focus;
      - draft: the values of the five inputs;
      - blurred: the global "focus locked" flag;
      - tableFocused: whether the table takes keys. */
  datatype Ui = Ui(
    accounts: seq<Account>,
    rows: seq<Row>,
    cursor: nat,
    selected: Option<nat>,
    focus: nat,
    draft: Account,
    echo: Echo,
    blurred: bool,
    tableFocused: bool)

  /** The keys Update distinguishes, one per binding. Navigate stands for the
      table's own movement keys and Edit for keystrokes that change the
      focused input, summarised by the value they leave in it. */
  datatype Key =
    | QuitKey
    | NewPwKey(generated: Bytes)
    | BlurKey
    | ShowPwKey
    | BackKey
    | DeleteKey
    | SaveKey
    | CopyPwKey
    | SelectKey
    | Navigate(row: nat)
    | Edit(value: string)

  /** What a step asks of the world outside the UI. */
  datatype Effect = NoEffect | Persist(records: seq<Account>) | Copied(pw: string) | Exit

  datatype Outcome = Outcome(ui: Ui, effect: Effect)

  /** The row index Update acts on: the ID column of the selected row read
      with strconv.ParseInt(…, 10, 32), its error dropped. */
  function RowIndex(ui: Ui): (index: int)
    requires ui.cursor < |ui.rows|
    ensures RowsMatch(ui.accounts, ui.rows) ==> 0 <= index <= ui.cursor
    ensures RowsMatch(ui.accounts, ui.rows) && ui.cursor <= Strconv.MaxInt32 ==> index == ui.cursor
  {
    Strconv.RowIdRoundTrip(ui.cursor);
    Strconv.ParseIntLenient(ui.rows[ui.cursor].id, Strconv.MinInt32, Strconv.MaxInt32)
  }

  /** The states Update can be in. */
  ghost predicate Inv(ui: Ui) {
    && |ui.accounts| >= 1
    && ui.accounts[0] == Sentinel
    && RowsMatch(ui.accounts, ui.rows)
    && ui.cursor < |ui.rows|
    && ui.focus < FieldCount
    && (ui.selected.Some? ==> ui.selected.value == RowIndex(ui) && !ui.tableFocused)
    && (!ui.blurred ==> ui.tableFocused == ui.selected.None?)
  }

  /** An input has keyboard focus exactly when focus is locked on an open
      record: only the locking branch of Blur focuses an input, and every
      branch that leaves the record or unlocks blurs them all. */
  predicate Editing(ui: Ui) {
    ui.blurred && ui.selected.Some?
  }

  /** `setupHeadless`: the placeholder, then the loaded records in order;
      the table is focused on row 0 and the password input hides its value. */
  function Setup(loaded: seq<Account>): (ui: Ui)
    ensures Inv(ui)
    ensures ui.accounts[0] == Sentinel && ui.accounts[1..] == loaded
    ensures |ui.rows| == |loaded| + 1
    ensures ui.cursor == 0 && ui.selected.None? && ui.tableFocused && !ui.blurred
  {
    var accounts := [Sentinel] + loaded;
    Ui(accounts, RowsOf(accounts), 0, None, 0, Store.Account("", "", "", "", ""), EchoPassword, false, true)
  }

  /** The keys whose bindings stay enabled while focus is locked. */
  predicate Enabled(ui: Ui, key: Key) {
    !ui.blurred || key.BlurKey? || key.DeleteKey? || key.Navigate? || key.Edit?
  }

  /** The draft with input `focus` set to value; any focus other than 1..4
      is the service input, as in the switch's default case. */
  function SetField(draft: Account, focus: nat, value: string): (d: Account)
    ensures focus == 4 ==> d == draft.(pw := value)
    ensures focus == 3 ==> d == draft.(user := value)
    ensures focus == 2 ==> d == draft.(notes := value)
    ensures focus == 1 ==> d == draft.(description := value)
    ensures focus !in {1, 2, 3, 4} ==> d == draft.(service := value)
  {
    match focus
    case 1 => draft.(description := value)
    case 2 => draft.(notes := value)
    case 3 => draft.(user := value)
    case 4 => draft.(pw := value)
    case _ => draft.(service := value)
  }

  /** After the row set changes the table keeps its cursor in range. */
  function Clamp(cursor: nat, rows: seq<Row>): (c: nat)
    requires |rows| > 0
    ensures c < |rows|
    ensures cursor < |rows| ==> c == cursor
  {
    if cursor > |rows| - 1 then |rows| - 1 else cursor
  }

  /** The common end of Delete and Save: the collection is replaced, the
      rows rebuilt from it, the inputs blurred, focus reset, the record
      closed and the table focused; what is written is everything after the
      placeholder. */
  function Commit(ui: Ui, accounts: seq<Account>): (o: Outcome)
    requires |accounts| > 0 && accounts[0] == Sentinel && ui.focus < FieldCount
    ensures Inv(o.ui)
    ensures o.ui.accounts == accounts
    ensures o.ui.focus == 0 && o.ui.selected.None? && o.ui.tableFocused
    ensures o.ui.cursor == Clamp(ui.cursor, o.ui.rows)
    ensures o.ui.draft == ui.draft && o.ui.echo == ui.echo && o.ui.blurred == ui.blurred
    ensures o.effect == Persist(accounts[1..])
  {
    var rows := RowsOf(accounts);
    Outcome(ui.(accounts := accounts, rows := rows, cursor := Clamp(ui.cursor, rows),
                focus := 0, selected := None, tableFocused := true),
            Persist(accounts[1..]))
  }

  /** The Delete branch. Row 0 cannot be deleted: that only closes the
      record. Any other row i loses record i and nothing else, and the rest
      of the collection is persisted. */
  function Delete(ui: Ui): (o: Outcome)
    requires Inv(ui)
    ensures Inv(o.ui)
    ensures RowIndex(ui) == 0 ==> o.ui.accounts == ui.accounts && o.effect == NoEffect
    ensures RowIndex(ui) != 0 ==> |o.ui.accounts| == |ui.accounts| - 1
    ensures RowIndex(ui) != 0 ==> forall k :: 0 <= k < RowIndex(ui) ==> o.ui.accounts[k] == ui.accounts[k]
    ensures RowIndex(ui) != 0 ==> forall k :: RowIndex(ui) <= k < |o.ui.accounts| ==> o.ui.accounts[k] == ui.accounts[k + 1]
    ensures RowIndex(ui) != 0 ==> o.effect == Persist(o.ui.accounts[1..])
    ensures o.ui.focus == 0 && o.ui.selected.None? && o.ui.tableFocused
    ensures o.ui.draft == ui.draft && o.ui.echo == ui.echo && o.ui.blurred == ui.blurred
  {
    var index := RowIndex(ui);
    if index == 0 then
      Outcome(ui.(focus := 0, selected := None, tableFocused := true), NoEffect)
    else
      var accounts := ui.accounts[..index] + ui.accounts[index + 1..];
      RemoveAt(ui.accounts, index, accounts);
      assert accounts[0] == Sentinel;
      Commit(ui, accounts)
  }

  /** `slices.Delete(s, i, i+1)`: one element fewer, those before i kept in
      place and those after it shifted down by one. */
  lemma RemoveAt<T>(s: seq<T>, i: nat, r: seq<T>)
    requires i < |s| && r == s[..i] + s[i + 1..]
    ensures |r| == |s| - 1
    ensures forall k :: 0 <= k < i ==> r[k] == s[k]
    ensures forall k :: i <= k < |r| ==> r[k] == s[k + 1]
  {
  }

  /** The Save branch. With no record open nothing happens. On an existing
      record its five fields become the inputs. On the placeholder a new
      record is appended when the service and password are non-empty. In
      every open case the collection after the placeholder is persisted. */
  function Save(ui: Ui): (o: Outcome)
    requires Inv(ui)
    ensures Inv(o.ui)
    ensures ui.selected.None? ==> o == Outcome(ui, NoEffect)
    ensures ui.selected.Some? && ui.selected.value != 0 ==>
      o.ui.accounts == ui.accounts[ui.selected.value := ui.draft]
    ensures ui.selected.Some? && ui.selected.value == 0 ==>
      (|o.ui.accounts| == |ui.accounts| + 1 <==> |ui.draft.service| > 0 && |ui.draft.pw| > 0)
    ensures ui.selected.Some? && ui.selected.value == 0 ==>
      o.ui.accounts == if |ui.draft.service| > 0 && |ui.draft.pw| > 0 then ui.accounts + [ui.draft] else ui.accounts
    ensures ui.selected.Some? ==> o.effect == Persist(o.ui.accounts[1..])
    ensures ui.selected.Some? ==> o.ui.focus == 0 && o.ui.selected.None? && o.ui.tableFocused
    ensures o.ui.cursor == ui.cursor
    ensures o.ui.draft == ui.draft && o.ui.echo == ui.echo && o.ui.blurred == ui.blurred
  {
    match ui.selected
    case None => Outcome(ui, NoEffect)
    case Some(record) =>
      var index := RowIndex(ui);
      var accounts :=
        if index != 0 then ui.accounts[record := ui.draft]
        else if |ui.draft.service| > 0 && |ui.draft.pw| > 0 then ui.accounts + [ui.draft]
        else ui.accounts;
      Commit(ui, accounts)
  }

  /** The Select/Next branch. With no record open the selected row's record
      is opened, its fields copied into the inputs (blank for the
      placeholder) and focus put on the first input. With a record open,
      focus moves to the next input, wrapping after the fifth. */
  function SelectOrNext(ui: Ui): (o: Outcome)
    requires Inv(ui)
    ensures Inv(o.ui)
    ensures o.effect == NoEffect && o.ui.accounts == ui.accounts
    ensures ui.selected.None? ==> o.ui.selected == Some(RowIndex(ui)) && o.ui.focus == 0
    ensures ui.selected.None? && RowIndex(ui) != 0 ==> o.ui.draft == ui.accounts[RowIndex(ui)]
    ensures ui.selected.None? && RowIndex(ui) == 0 ==> o.ui.draft == Store.Account("", "", "", "", "")
    ensures ui.selected.Some? ==> o.ui.focus == (ui.focus + 1) % FieldCount && o.ui.selected == ui.selected
    ensures ui.selected.Some? ==> o.ui.draft == ui.draft && o.ui.tableFocused == ui.tableFocused
    ensures o.ui.echo == ui.echo && o.ui.blurred == ui.blurred && o.ui.cursor == ui.cursor && o.ui.rows == ui.rows
  {
    match ui.selected
    case None =>
      var index := RowIndex(ui);
      var draft := if index != 0 then ui.accounts[index] else Store.Account("", "", "", "", "");
      Outcome(ui.(selected := Some(index), draft := draft, focus := 0, tableFocused := false), NoEffect)
    case Some(_) =>
      Outcome(ui.(focus := (ui.focus + 1) % FieldCount), NoEffect)
  }

  /** The Back branch: the record is closed without saving. */
  function Back(ui: Ui): (o: Outcome)
    requires Inv(ui) && !ui.blurred
    ensures Inv(o.ui)
    ensures o.ui.accounts == ui.accounts && o.effect == NoEffect
    ensures o.ui.focus == 0 && o.ui.selected.None? && o.ui.tableFocused
    ensures o.ui.draft == ui.draft && o.ui.echo == ui.echo && o.ui.blurred == ui.blurred
    ensures o.ui.cursor == ui.cursor && o.ui.rows == ui.rows
  {
    Outcome(ui.(focus := 0, selected := None, tableFocused := true), NoEffect)
  }

  /** The Blur branch: toggles the lock. Unlocking gives the keys back to
      the table unless a record is open; locking takes them from the table
      and, with a record open, gives them to the focused input. */
  function ToggleBlur(ui: Ui): (o: Outcome)
    requires Inv(ui)
    ensures Inv(o.ui)
    ensures o.ui.blurred == !ui.blurred && o.effect == NoEffect
    ensures o.ui.blurred ==> !o.ui.tableFocused && (Editing(o.ui) <==> ui.selected.Some?)
    ensures !o.ui.blurred ==> (o.ui.tableFocused <==> ui.selected.None?) && !Editing(o.ui)
    ensures o.ui.(blurred := ui.blurred, tableFocused := ui.tableFocused) == ui
  {
    if ui.blurred then
      Outcome(ui.(blurred := false, tableFocused := ui.selected.None?), NoEffect)
    else
      Outcome(ui.(blurred := true, tableFocused := false), NoEffect)
  }

  /** The ShowPw branch: the password input switches between showing and
      masking its value. */
  function ToggleEcho(ui: Ui): (o: Outcome)
    requires Inv(ui)
    ensures Inv(o.ui)
    ensures o.ui.echo != ui.echo && o.ui.(echo := ui.echo) == ui && o.effect == NoEffect
  {
    Outcome(ui.(echo := if ui.echo == EchoNormal then EchoPassword else EchoNormal), NoEffect)
  }

  /** The NewPw branch: the password input takes the generated password. */
  function NewPassword(ui: Ui, generated: Bytes): (o: Outcome)
    requires Inv(ui)
    ensures Inv(o.ui)
    ensures o.ui.draft.pw == AsString(generated)
    ensures o.ui.(draft := ui.draft) == ui && o.ui.draft.(pw := ui.draft.pw) == ui.draft
    ensures o.effect == NoEffect
  {
    Outcome(ui.(draft := ui.draft.(pw := AsString(generated))), NoEffect)
  }

  /** The CopyPw branch: the password of the selected row's record, or, with
      a record open, the stored password of that record (not the input). */
  function CopyPassword(ui: Ui): (o: Outcome)
    requires Inv(ui)
    ensures o.ui == ui
    ensures ui.selected.None? ==> o.effect == Copied(ui.accounts[RowIndex(ui)].pw)
    ensures ui.selected.Some? ==> o.effect == Copied(ui.accounts[ui.selected.value].pw)
  {
    var index := if ui.selected.None? then RowIndex(ui) else ui.selected.value;
    Outcome(ui, Copied(ui.accounts[index].pw))
  }

  /** What the trailing widget update does with a key no branch took: the
      table moves its cursor, a focused input takes the edit. */
  function PassThrough(ui: Ui, key: Key): (o: Outcome)
    requires Inv(ui)
    ensures Inv(o.ui)
    ensures o.effect == NoEffect
    ensures key.Navigate? ==> o.ui.(cursor := ui.cursor) == ui
    ensures key.Navigate? ==> o.ui.cursor == if ui.tableFocused then Clamp(key.row, ui.rows) else ui.cursor
    ensures key.Edit? ==> o.ui.(draft := ui.draft) == ui
    ensures key.Edit? ==> o.ui.draft == if Editing(ui) then SetField(ui.draft, ui.focus, key.value) else ui.draft
    ensures !key.Navigate? && !key.Edit? ==> o.ui == ui
  {
    match key
    case Navigate(row) =>
      if ui.tableFocused then Outcome(ui.(cursor := Clamp(row, ui.rows)), NoEffect) else Outcome(ui, NoEffect)
    case Edit(value) =>
      if !ui.tableFocused && Editing(ui) then Outcome(ui.(draft := SetField(ui.draft, ui.focus, value)), NoEffect)
      else Outcome(ui, NoEffect)
    case _ => Outcome(ui, NoEffect)
  }

  /** `model.Update` for one key. A binding that is disabled does not match,
      and its key goes to the widgets like any other. */
  function Step(ui: Ui, key: Key): (o: Outcome)
    requires Inv(ui)
    ensures Inv(o.ui)
    ensures o.effect.Persist? ==> o.effect.records == o.ui.accounts[1..]
    ensures o.effect.Persist? ==> key.DeleteKey? || key.SaveKey?
    ensures o.effect == Exit <==> key.QuitKey? && !ui.blurred
  {
    if !Enabled(ui, key) then PassThrough(ui, key)
    else
      match key
      case QuitKey => Outcome(ui, Exit)
      case NewPwKey(generated) => NewPassword(ui, generated)
      case BlurKey => ToggleBlur(ui)
      case ShowPwKey => ToggleEcho(ui)
      case BackKey => Back(ui)
      case DeleteKey => Delete(ui)
      case SaveKey => Save(ui)
      case CopyPwKey => CopyPassword(ui)
      case SelectKey => SelectOrNext(ui)
      case _ => PassThrough(ui, key)
  }

  /** A session: the keys applied one after another. */
  function Run(ui: Ui, keys: seq<Key>): (r: Ui)
    requires Inv(ui)
    ensures Inv(r)
    ensures r.accounts[0] == Sentinel && RowsMatch(r.accounts, r.rows)
    decreases |keys|
  {
    if |keys| == 0 then ui else Run(Step(ui, keys[0]).ui, keys[1..])
  }

  /** What a step persists is exactly what a restart reads back: Step
      persists the records after the placeholder of a reachable state, and
      with the same key material, setting up from the saved file shows that
      state's collection again, placeholder included. */
  lemma PersistThenRestart(ui: Ui, b: Cipher.Backend, j: Store.Json, nonce: Cipher.Nonce)
    requires Inv(ui)
    requires Cipher.Sound(b) && Store.JsonRoundTrips(j)
    requires Store.Save(b, j, nonce, ui.accounts[1..]).Ok?
    ensures Store.Load(b, j, Files.Contents(Store.Save(b, j, nonce, ui.accounts[1..]).value)).Ok?
    ensures Setup(Store.Load(b, j, Files.Contents(Store.Save(b, j, nonce, ui.accounts[1..]).value)).value).accounts
      == ui.accounts
  {
    var records := ui.accounts[1..];
    Store.SaveLoadRoundTrip(b, j, nonce, records);
    var restarted := Setup(records).accounts;
    assert restarted[0] == ui.accounts[0] && restarted[1..] == records;
    assert restarted == ui.accounts by {
      assert restarted == [restarted[0]] + restarted[1..];
      assert ui.accounts == [ui.accounts[0]] + ui.accounts[1..];
    }
  }

  /** Locking and unlocking again restores the state exactly. */
  lemma BlurTwiceRestores(ui: Ui)
    requires Inv(ui) && !ui.blurred
    ensures Step(Step(ui, BlurKey).ui, BlurKey) == Outcome(ui, NoEffect)
  {
  }

  /** Showing and hiding the password again restores the state exactly. */
  lemma ShowPwTwiceRestores(ui: Ui)
    requires Inv(ui) && !ui.blurred
    ensures Step(Step(ui, ShowPwKey).ui, ShowPwKey) == Outcome(ui, NoEffect)
  {
  }

  /** One Next press with a record open moves focus and nothing else. */
  lemma NextMovesFocus(ui: Ui)
    requires Inv(ui) && !ui.blurred && ui.selected.Some?
    ensures Step(ui, SelectKey).ui == ui.(focus := if ui.focus + 1 == FieldCount then 0 else ui.focus + 1)
  {
  }

  /** With a record open, five Next presses bring focus back to the input
      it started on and change nothing else. */
  lemma FiveNextsCycle(ui: Ui)
    requires Inv(ui) && !ui.blurred && ui.selected.Some?
    ensures Run(ui, [SelectKey, SelectKey, SelectKey, SelectKey, SelectKey]) == ui
  {
    var keys := [SelectKey, SelectKey, SelectKey, SelectKey, SelectKey];
    NextMovesFocus(ui);
    var u1 := Step(ui, SelectKey).ui;
    NextMovesFocus(u1);
    var u2 := Step(u1, SelectKey).ui;
    NextMovesFocus(u2);
    var u3 := Step(u2, SelectKey).ui;
    NextMovesFocus(u3);
    var u4 := Step(u3, SelectKey).ui;
    NextMovesFocus(u4);
    var u5 := Step(u4, SelectKey).ui;
    assert u5 == ui;
    assert keys[1..] == [SelectKey, SelectKey, SelectKey, SelectKey];
    assert keys[1..][1..] == [SelectKey, SelectKey, SelectKey];
    assert keys[1..][1..][1..] == [SelectKey, SelectKey];
    assert keys[1..][1..][1..][1..] == [SelectKey];
    assert Run(u4, [SelectKey]) == Run(u5, []);
  }

  /** While focus is locked, every key bound to a disabled binding reaches
      no branch, and no widget takes it: nothing changes. */
  lemma LockedKeysAreInert(ui: Ui, key: Key)
    requires Inv(ui) && ui.blurred
    requires key.QuitKey? || key.NewPwKey? || key.ShowPwKey? || key.BackKey? || key.SaveKey? || key.CopyPwKey? || key.SelectKey?
    ensures Step(ui, key) == Outcome(ui, NoEffect)
  {
  }

  /** Opening an existing record and saving it without edits writes back
      the same collection. */
  lemma OpenThenSaveKeepsRecord(ui: Ui)
    requires Inv(ui) && !ui.blurred && ui.selected.None? && RowIndex(ui) != 0
    ensures Step(Step(ui, SelectKey).ui, SaveKey).ui.accounts == ui.accounts
    ensures Step(Step(ui, SelectKey).ui, SaveKey).effect == Persist(ui.accounts[1..])
  {
    var open := Step(ui, SelectKey).ui;
    assert RowIndex(open) == RowIndex(ui);
    assert open.draft == ui.accounts[RowIndex(ui)];
    assert ui.accounts[RowIndex(ui) := open.draft] == ui.accounts;
  }
}

=== FILE: generator.dfy ===
/** Password generation (src/global.go): `generatePwInternal` draws a length
    and then one character per position from a weighted alphabet, and
    `generatePw` screens the candidate with `isPwValid`. The random draws of
    crypto/rand are parameters: a draw from rand.Int(rand.Reader, n) is any
    number below n. */
module Generator {
  import opened Results
  import opened Bytes
  import Strconv
  import Breach

  const MinLength: nat := 10
  /** The length draw is rand.Int(…, 21): 0 to 20 inclusive. */
  const LengthDraws: nat := 21
  /** The bound the doc comment of generatePwInternal promises. */
  const DocumentedMaxLength: nat := 20

  /** The `chars` literal of generatePwInternal, written as its segments:
      the letters once, the digits three times and the specials twice. */
  const Lower: string := "abcdefghijklmnopqrstuvwxyz"
  const Upper: string := "ABCDEFGHIJKLMNOPQRSTUVWXYZ"
  const Digits: string := "0123456789"
  const Specials: string := "?+=!&/-_<>|"
  const Alphabet: string := Lower + Upper + Digits + Digits + Digits + Specials + Specials

  /** `chars` as bytes, converted segment by segment. */
  const Chars: Bytes :=
    AsciiBytes(Lower) + AsciiBytes(Upper) + AsciiBytes(Digits) + AsciiBytes(Digits) + AsciiBytes(Digits)
    + AsciiBytes(Specials) + AsciiBytes(Specials)

  /** The segment-wise conversion is the conversion of the whole literal. */
  lemma CharsSpellAlphabet()
    ensures FitsBytes(Alphabet) && Chars == AsciiBytes(Alphabet)
  {
    assert FitsBytes(Lower) && FitsBytes(Upper) && FitsBytes(Digits) && FitsBytes(Specials);
    AsciiAppend(Lower, Upper);
    AsciiAppend(Lower + Upper, Digits);
    AsciiAppend(Lower + Upper + Digits, Digits);
    AsciiAppend(Lower + Upper + Digits + Digits, Digits);
    AsciiAppend(Lower + Upper + Digits + Digits + Digits, Specials);
    AsciiAppend(Lower + Upper + Digits + Digits + Digits + Specials, Specials);
  }

  predicate IsLetter(c: char) {
    'a' <= c <= 'z' || 'A' <= c <= 'Z'
  }

  /** Number of occurrences of c in s: its weight in a uniform draw. */
  function Count(s: string, c: char): nat {
    if |s| == 0 then 0 else (if s[0] == c then 1 else 0) + Count(s[1..], c)
  }

  predicate Distinct(s: string) {
    forall i, j :: 0 <= i < j < |s| ==> s[i] != s[j]
  }

  lemma {:induction false} CountAppend(a: string, b: string, c: char)
    ensures Count(a + b, c) == Count(a, c) + Count(b, c)
  {
    if |a| == 0 {
      assert a + b == b;
    } else {
      CountAppend(a[1..], b, c);
      assert (a + b)[0] == a[0];
      assert (a + b)[1..] == a[1..] + b;
    }
  }

  lemma {:induction false} CountPositive(s: string, c: char)
    ensures c in s <==> Count(s, c) > 0
  {
    if |s| > 0 {
      CountPositive(s[1..], c);
      assert c in s <==> s[0] == c || c in s[1..] by {
        assert s == [s[0]] + s[1..];
      }
    }
  }

  lemma {:induction false} CountDistinct(s: string, c: char)
    requires Distinct(s)
    ensures Count(s, c) == if c in s then 1 else 0
  {
    if |s| > 0 {
      CountDistinct(s[1..], c);
      if s[0] == c {
        assert c !in s[1..] by {
          forall k | 0 <= k < |s| - 1
            ensures s[1..][k] != c
          {
            assert s[k + 1] != s[0];
          }
        }
      } else {
        assert c in s <==> c in s[1..] by {
          assert s == [s[0]] + s[1..];
        }
      }
    }
  }

  /** The segments: three runs of consecutive characters and eleven distinct
      specials that are neither letters nor digits. */
  lemma SegmentFacts()
    ensures forall i :: 0 <= i < |Lower| ==> Lower[i] as int == 'a' as int + i
    ensures forall i :: 0 <= i < |Upper| ==> Upper[i] as int == 'A' as int + i
    ensures forall i :: 0 <= i < |Digits| ==> Digits[i] as int == '0' as int + i
    ensures Distinct(Specials)
    ensures forall i :: 0 <= i < |Specials| ==> !IsLetter(Specials[i]) && !Strconv.IsDigit(Specials[i])
  {
  }

  /** A run of consecutive characters holds each character of its range
      exactly once. */
  lemma RunCount(s: string, lo: int, c: char)
    requires forall i :: 0 <= i < |s| ==> s[i] as int == lo + i
    ensures Count(s, c) == if lo <= c as int < lo + |s| then 1 else 0
  {
    assert Distinct(s);
    CountDistinct(s, c);
    if lo <= c as int < lo + |s| {
      assert s[c as int - lo] == c;
    }
  }

  /** Counts in a segment: each letter occurs once in its own run and not
      elsewhere; each special once in Specials. */
  lemma SegmentCounts(c: char)
    ensures Count(Lower, c) == if 'a' <= c <= 'z' then 1 else 0
    ensures Count(Upper, c) == if 'A' <= c <= 'Z' then 1 else 0
    ensures Count(Digits, c) == if Strconv.IsDigit(c) then 1 else 0
    ensures Count(Specials, c) == if c in Specials then 1 else 0
    ensures c in Specials ==> !IsLetter(c) && !Strconv.IsDigit(c)
  {
    SegmentFacts();
    RunCount(Lower, 'a' as int, c);
    RunCount(Upper, 'A' as int, c);
    RunCount(Digits, '0' as int, c);
    CountDistinct(Specials, c);
  }

  /** `chars` has 104 bytes; every letter has weight 1, every digit weight 3
      and each of ?+=!&/-_<>| weight 2, and nothing else can be drawn. */
  lemma AlphabetWeights()
    ensures |Alphabet| == |Chars| == 104
    ensures forall c :: IsLetter(c) ==> Count(Alphabet, c) == 1
    ensures forall c :: Strconv.IsDigit(c) ==> Count(Alphabet, c) == 3
    ensures forall c :: c in Specials ==> Count(Alphabet, c) == 2
    ensures forall c :: c in Alphabet <==> IsLetter(c) || Strconv.IsDigit(c) || c in Specials
  {
    forall c
      ensures Count(Alphabet, c) ==
        Count(Lower, c) + Count(Upper, c) + 3 * Count(Digits, c) + 2 * Count(Specials, c)
    {
      CountAppend(Lower, Upper, c);
      CountAppend(Lower + Upper, Digits, c);
      CountAppend(Lower + Upper + Digits, Digits, c);
      CountAppend(Lower + Upper + Digits + Digits, Digits, c);
      CountAppend(Lower + Upper + Digits + Digits + Digits, Specials, c);
      CountAppend(Lower + Upper + Digits + Digits + Digits + Specials, Specials, c);
    }
    forall c
      ensures c in Alphabet <==> Count(Alphabet, c) > 0
      ensures Count(Lower, c) == if 'a' <= c <= 'z' then 1 else 0
      ensures Count(Upper, c) == if 'A' <= c <= 'Z' then 1 else 0
      ensures Count(Digits, c) == if Strconv.IsDigit(c) then 1 else 0
      ensures Count(Specials, c) == if c in Specials then 1 else 0
      ensures c in Specials ==> !IsLetter(c) && !Strconv.IsDigit(c)
    {
      CountPositive(Alphabet, c);
      SegmentCounts(c);
    }
    CharsSpellAlphabet();
  }

  /** `bi.Int64()+10`: the length of a candidate for a given length draw. */
  function CandidateLength(lengthDraw: nat): nat {
    lengthDraw + MinLength
  }

  /** `generatePwInternal`: a buffer of CandidateLength(lengthDraw) bytes,
      position i holding chars[charDraws[i]]. Every index drawn is in bounds
      because rand.Int(…, len(chars)) is below len(chars). */
  method GeneratePwInternal(lengthDraw: nat, charDraws: seq<nat>) returns (pw: Bytes)
    requires lengthDraw < LengthDraws
    requires |charDraws| == CandidateLength(lengthDraw)
    requires forall i :: 0 <= i < |charDraws| ==> charDraws[i] < |Chars|
    ensures MinLength <= |pw| <= MinLength + LengthDraws - 1
    ensures |pw| == |charDraws|
    ensures forall i :: 0 <= i < |pw| ==> pw[i] == Chars[charDraws[i]]
  {
    pw := FillFrom(Chars, charDraws);
  }

  /** The loop `for i := range buf { buf[i] = chars[draw] }` over any
      alphabet: position i holds the character at the i-th draw. */
  method FillFrom(chars: Bytes, draws: seq<nat>) returns (pw: Bytes)
    requires forall i :: 0 <= i < |draws| ==> draws[i] < |chars|
    ensures |pw| == |draws|
    ensures forall i :: 0 <= i < |pw| ==> pw[i] == chars[draws[i]]
  {
    var buf := new byte[|draws|];
    for i := 0 to buf.Length
      invariant forall j :: 0 <= j < i ==> buf[j] == chars[draws[j]]
    {
      buf[i] := chars[draws[i]];
    }
    pw := buf[..];
  }

  /** Every byte of a generated candidate is a letter, a digit or one of the
      special characters. */
  lemma CandidateBytesFromAlphabet(pw: Bytes, charDraws: seq<nat>)
    requires |pw| == |charDraws|
    requires forall i :: 0 <= i < |charDraws| ==> charDraws[i] < |Chars|
    requires forall i :: 0 <= i < |pw| ==> pw[i] == Chars[charDraws[i]]
    ensures forall i :: 0 <= i < |pw| ==> pw[i] in Chars
    ensures forall i :: 0 <= i < |pw| ==>
      var c := pw[i] as int as char; IsLetter(c) || Strconv.IsDigit(c) || c in Specials
  {
    AlphabetWeights();
    CharsSpellAlphabet();
    forall i | 0 <= i < |pw|
      ensures var c := pw[i] as int as char; IsLetter(c) || Strconv.IsDigit(c) || c in Specials
    {
      assert Alphabet[charDraws[i]] in Alphabet;
    }
  }

  /** The length range as written is 10..30: a length draw of 20 gives a
      30-character candidate, above the documented bound of 20. */
  lemma AsWrittenLengthExceedsDoc()
    ensures forall d :: 0 <= d < LengthDraws ==> MinLength <= CandidateLength(d) <= 30
    ensures CandidateLength(LengthDraws - 1) == 30 > DocumentedMaxLength
  {
  }

  /** The draw bound that meets the documented range 10..20. */
  const IntendedLengthDraws: nat := 11

  lemma IntendedLengthWithinDoc()
    ensures forall d :: 0 <= d < IntendedLengthDraws ==> MinLength <= CandidateLength(d) <= DocumentedMaxLength
    ensures CandidateLength(IntendedLengthDraws - 1) == DocumentedMaxLength
  {
  }

  /** `generatePwInternal` with the length drawn by rand.Int(…, 11): the
      same characters, and a candidate of 10 to 20 bytes as documented. */
  method GeneratePwIntended(lengthDraw: nat, charDraws: seq<nat>) returns (pw: Bytes)
    requires lengthDraw < IntendedLengthDraws
    requires |charDraws| == CandidateLength(lengthDraw)
    requires forall i :: 0 <= i < |charDraws| ==> charDraws[i] < |Chars|
    ensures MinLength <= |pw| <= DocumentedMaxLength
    ensures |pw| == |charDraws|
    ensures forall i :: 0 <= i < |pw| ==> pw[i] == Chars[charDraws[i]]
  {
    IntendedLengthWithinDoc();
    pw := GeneratePwInternal(lengthDraw, charDraws);
  }

  /** What generatePw does with its first candidate. */
  datatype Generated = Returned(pw: Bytes) | Spins | Crashes(fault: Fault)

  /** The loop `for !b && n != 0 { zero(pwd); pwd = generatePwInternal() }`
      run over a finite supply of later candidates: Some(pwd) once it exits,
      None when every later candidate has been drawn and it still has not. */
  function RetryLoop(b: bool, n: Strconv.uint32, pwd: Bytes, later: seq<Bytes>): Option<Bytes>
    decreases |later|
  {
    if b || n == 0 then Some(pwd)
    else if |later| == 0 then None
    else RetryLoop(b, n, later[0], later[1..])
  }

  /** The guard of the retry loop reads b and n, which the body never
      assigns: a loop that is entered is never left, however many later
      candidates it draws, and a loop that is not entered keeps the first. */
  lemma {:induction false} RetryLoopNeverExits(b: bool, n: Strconv.uint32, pwd: Bytes, later: seq<Bytes>)
    ensures !b && n != 0 ==> RetryLoop(b, n, pwd, later) == None
    ensures b || n == 0 ==> RetryLoop(b, n, pwd, later) == Some(pwd)
    decreases |later|
  {
    if |later| > 0 {
      RetryLoopNeverExits(b, n, later[0], later[1..]);
    }
  }

  /** `generatePw` as written, for a first candidate and the candidates the
      loop would draw after it. A clean verdict returns the candidate, the
      error signal (false, 0) returns an empty password, a breach count
      other than 0 spins forever, and a panic in isPwValid propagates. */
  function GeneratePw(candidate: Bytes, later: seq<Bytes>, sha1: Bytes -> Breach.Digest, get: string -> Breach.HttpOutcome): (r: Generated)
    ensures Breach.IsPwValid(candidate, sha1, get) == Ok(Breach.Verdict(true, 0)) ==> r == Returned(candidate)
    ensures Breach.IsPwValid(candidate, sha1, get) == Ok(Breach.Verdict(false, 0)) ==> r == Returned([])
    ensures r.Spins? <==> exists n: Strconv.uint32 :: n != 0 && Breach.IsPwValid(candidate, sha1, get) == Ok(Breach.Verdict(false, n))
    ensures r.Crashes? <==> Breach.IsPwValid(candidate, sha1, get).Err?
  {
    match Breach.IsPwValid(candidate, sha1, get)
    case Err(e) => Crashes(e)
    case Ok(Verdict(b, n)) =>
      RetryLoopNeverExits(b, n, candidate, later);
      match RetryLoop(b, n, candidate, later)
      case None => Spins
      case Some(pwd) => if !b && n == 0 then Returned([]) else Returned(pwd)
  }

  /** Why a re-checking generator gives up. */
  datatype GiveUp = Undeterminable | OutOfCandidates

  /** Every candidate before position k was found breached. */
  predicate Rejected(candidates: seq<Bytes>, check: Bytes -> Breach.Breach, k: nat)
    requires k <= |candidates|
  {
    forall j :: 0 <= j < k ==> check(candidates[j]).Breached?
  }

  /** Generation with the verdict re-evaluated for every new candidate and
      the three-way check: the first clean candidate is returned, breached
      ones are discarded, and an indeterminate check stops generation. */
  function GenerateRechecked(candidates: seq<Bytes>, check: Bytes -> Breach.Breach): (r: Result<Bytes, GiveUp>)
    ensures r.Ok? ==> check(r.value) == Breach.Clean
    ensures r.Ok? ==> (exists k :: 0 <= k < |candidates| && candidates[k] == r.value && Rejected(candidates, check, k))
    ensures r == Err(Undeterminable) ==> (exists k :: 0 <= k < |candidates| && check(candidates[k]) == Breach.Indeterminate && Rejected(candidates, check, k))
    ensures r == Err(OutOfCandidates) ==> forall j :: 0 <= j < |candidates| ==> check(candidates[j]).Breached?
  {
    if |candidates| == 0 then Err(OutOfCandidates)
    else
      match check(candidates[0])
      case Clean => Ok(candidates[0])
      case Indeterminate => Err(Undeterminable)
      case Breached(_) =>
        var r := GenerateRechecked(candidates[1..], check);
        assert forall j :: 1 <= j < |candidates| ==> candidates[j] == candidates[1..][j - 1];
        r
  }
}

=== FILE: hex.dfy ===
/** Hexadecimal rendering of a digest, as isPwValid builds it with
    strings.TrimSpace(strings.ToUpper(hex.EncodeToString(sum))). */
module Hex {
  import opened Results
  import opened Bytes
  import Text

  /** Digit x of the table "0123456789abcdef" used by hex.EncodeToString. */
  function LowerDigit(x: nat): char
    requires x < 16
  {
    if x < 10 then ('0' as int + x) as char else ('a' as int + x - 10) as char
  }

  /** Digit x of "0123456789ABCDEF". */
  function UpperDigit(x: nat): char
    requires x < 16
  {
    if x < 10 then ('0' as int + x) as char else ('A' as int + x - 10) as char
  }

  predicate IsUpperHexDigit(c: char) {
    '0' <= c <= '9' || 'A' <= c <= 'F'
  }

  predicate IsUpperHex(h: string) {
    forall i :: 0 <= i < |h| ==> IsUpperHexDigit(h[i])
  }

  /** hex.EncodeToString: two lower-case digits per byte, high nibble first. */
  function EncodeToString(d: Bytes): (h: string)
    ensures |h| == 2 * |d|
    ensures forall i :: 0 <= i < |d| ==>
      h[2 * i] == LowerDigit((d[i] / 16) as nat) && h[2 * i + 1] == LowerDigit((d[i] % 16) as nat)
  {
    if |d| == 0 then ""
    else [LowerDigit((d[0] / 16) as nat), LowerDigit((d[0] % 16) as nat)] + EncodeToString(d[1..])
  }

  /** The hash text isPwValid splits into the range prefix and the suffix. */
  function HashHex(d: Bytes): string {
    Text.TrimSpace(Text.ToUpper(EncodeToString(d)))
  }

  lemma UpperHexSlices(h: string, k: nat)
    requires IsUpperHex(h) && k <= |h|
    ensures IsUpperHex(h[..k]) && IsUpperHex(h[k..])
  {
  }

  /** Value of one upper-case hexadecimal digit. */
  function NibbleValue(c: char): Option<nat> {
    if '0' <= c <= '9' then Some(c as int - '0' as int)
    else if 'A' <= c <= 'F' then Some(c as int - 'A' as int + 10)
    else None
  }

  /** Reads upper-case hexadecimal text back into bytes; None unless the text
      is an even number of upper-case hex digits. */
  function DecodeUpper(h: string): (r: Option<Bytes>)
    ensures r.Some? ==> 2 * |r.value| == |h|
  {
    if |h| == 0 then Some([])
    else if |h| == 1 then None
    else
      match (NibbleValue(h[0]), NibbleValue(h[1]), DecodeUpper(h[2..]))
      case (Some(hi), Some(lo), Some(rest)) =>
        if hi < 16 && lo < 16 then Some([(hi * 16 + lo) as byte] + rest) else None
      case _ => None
  }

  /** Upper-case rendering, two digits per byte. */
  function UpperEncode(d: Bytes): string {
    if |d| == 0 then ""
    else [UpperDigit((d[0] / 16) as nat), UpperDigit((d[0] % 16) as nat)] + UpperEncode(d[1..])
  }

  lemma {:induction false} UpperEncodeDecodes(d: Bytes)
    ensures IsUpperHex(UpperEncode(d))
    ensures |UpperEncode(d)| == 2 * |d|
    ensures DecodeUpper(UpperEncode(d)) == Some(d)
  {
    if |d| > 0 {
      UpperEncodeDecodes(d[1..]);
      var h := UpperEncode(d);
      var hi, lo := (d[0] / 16) as nat, (d[0] % 16) as nat;
      assert h[2..] == UpperEncode(d[1..]);
      assert NibbleValue(h[0]) == Some(hi);
      assert NibbleValue(h[1]) == Some(lo);
      assert (hi * 16 + lo) as byte == d[0];
      assert d == [d[0]] + d[1..];
    }
  }

  lemma {:induction false} ToUpperOfEncoding(d: Bytes)
    ensures Text.ToUpper(EncodeToString(d)) == UpperEncode(d)
  {
    if |d| > 0 {
      ToUpperOfEncoding(d[1..]);
      var e := EncodeToString(d);
      assert e == [LowerDigit((d[0] / 16) as nat), LowerDigit((d[0] % 16) as nat)] + EncodeToString(d[1..]);
      assert Text.ToUpper(e) == [Text.UpperChar(e[0]), Text.UpperChar(e[1])] + Text.ToUpper(e[2..]);
    }
  }

  /** The hash text is upper-case hex, two characters per digest byte, and
      determines the digest: rendering loses and adds nothing. */
  lemma HashHexFacts(d: Bytes)
    ensures |HashHex(d)| == 2 * |d|
    ensures IsUpperHex(HashHex(d))
    ensures DecodeUpper(HashHex(d)) == Some(d)
  {
    ToUpperOfEncoding(d);
    UpperEncodeDecodes(d);
    Text.TrimSpaceNoSpace(UpperEncode(d));
  }
}

=== FILE: results.dfy ===
/** Failure-carrying values shared by every component of the vault model. */
module Results {

  /** A value that may be absent. */
  datatype Option<+T> = None | Some(value: T)

  /** The outcome of an operation that may fail with an error of type E. */
  datatype Result<+T, +E> = Ok(value: T) | Err(error: E) {
    predicate IsFailure() {
      Err?
    }

    function PropagateFailure<U>(): Result<U, E>
      requires Err?
    {
      Err(error)
    }

    function Extract(): T
      requires Ok?
    {
      value
    }
  }

  /** The reasons the vault program aborts. In the Go program every one of
      them is a panic that ends the process; the model returns it instead. */
  datatype Fault =
    | ReadFailed            // os.ReadFile failed for a reason other than "does not exist"
    | ShortCiphertext       // stored blob shorter than the AES-GCM nonce
    | AuthenticationFailed  // AES-GCM tag did not verify
    | ProtectFailed         // the OS data-protection service refused to encrypt
    | UnprotectFailed       // the OS data-protection service refused to decrypt
    | IndexOutOfRange       // a breach-lookup line without ':' (split[1] on a 1-element slice)
}

=== FILE: store.dfy ===
/** The vault file: `getAllAccounts` and `saveAccountsToDisk`
    (src/global.go). The collection is serialized with encoding/json, which
    is abstract here, then encrypted by a Cipher backend and written to the
    `accounts` file. */
module Store {
  import opened Results
  import opened Bytes
  import Files
  import Cipher

  /** `account`: the five string fields of one stored record. */
  datatype Account = Account(service: string, description: string, notes: string, user: string, pw: string)

  /** What json.Unmarshal leaves behind: the records it filled in, and
      whether it reported success. */
  datatype Decoded = Decoded(accounts: seq<Account>, ok: bool)

  /** encoding/json for a slice of accounts. Marshal cannot fail on records
      made only of strings. */
  datatype Json = Json(marshal: seq<Account> -> Bytes, unmarshal: Bytes -> Decoded)

  /** Unmarshal reads back exactly what Marshal wrote, in order. */
  ghost predicate JsonRoundTrips(j: Json) {
    forall a :: j.unmarshal(j.marshal(a)) == Decoded(a, true)
  }

  /** `getAllAccounts`, given what os.ReadFile observed for the accounts
      file. An absent or empty file is the empty collection and is never
      decrypted; otherwise the decrypted bytes are unmarshalled, and the
      records are returned even when json.Unmarshal reports an error. */
  function Load(b: Cipher.Backend, j: Json, file: Files.FileRead): (r: Result<seq<Account>, Fault>)
    ensures file.Missing? || file == Files.Contents([]) ==> r == Ok([])
    ensures file.Unreadable? ==> r == Err(ReadFailed)
    ensures file.Contents? && |file.data| > 0 ==>
      (r.Err? <==> Cipher.Decrypt(b, file.data).Err?)
    ensures file.Contents? && |file.data| > 0 && r.Err? ==> r.error == Cipher.Decrypt(b, file.data).error
    ensures file.Contents? && |file.data| > 0 && r.Ok? ==>
      r.value == j.unmarshal(Cipher.Decrypt(b, file.data).value).accounts
  {
    var encryptedData :- Files.ReadFile(file);
    if |encryptedData| == 0 then Ok([])
    else
      var data :- Cipher.Decrypt(b, encryptedData);
      Ok(j.unmarshal(data).accounts)
  }

  /** `saveAccountsToDisk`: the bytes handed to WriteFileRel. On Linux the
      file is the nonce followed by the sealed JSON, and saving fails only
      when the key cannot be read; with DPAPI it is the protected JSON.
      Whether the write succeeds is not reported to the caller. */
  function Save(b: Cipher.Backend, j: Json, nonce: Cipher.Nonce, accounts: seq<Account>): (r: Result<Bytes, Fault>)
    ensures b.AesGcm? ==> (r.Err? <==> b.machineId.Unreadable?)
    ensures b.AesGcm? && r.Ok? ==>
      r.value == nonce + b.aead.seal(Cipher.DeriveKey(b.sha256, b.machineId).value, nonce, j.marshal(accounts))
    ensures b.Dpapi? ==> r == (if b.protect(j.marshal(accounts)).Some? then Ok(b.protect(j.marshal(accounts)).value) else Err(ProtectFailed))
  {
    Cipher.Encrypt(b, nonce, j.marshal(accounts))
  }

  /** Loading what was saved gives back the same records in the same order,
      for every collection including the empty one, while the key material
      stays the same. */
  lemma SaveLoadRoundTrip(b: Cipher.Backend, j: Json, nonce: Cipher.Nonce, accounts: seq<Account>)
    requires Cipher.Sound(b) && JsonRoundTrips(j)
    requires Save(b, j, nonce, accounts).Ok?
    ensures Load(b, j, Files.Contents(Save(b, j, nonce, accounts).value)) == Ok(accounts)
  {
    var data := j.marshal(accounts);
    Cipher.EncryptDecrypt(b, nonce, data);
  }

  /** An empty vault loads as empty even on Linux, where decrypting the
      empty blob would have failed: the decrypt step is skipped. */
  lemma EmptyVaultSkipsDecrypt(b: Cipher.Backend, j: Json)
    requires b.AesGcm? && !b.machineId.Unreadable?
    ensures Cipher.Decrypt(b, []) == Err(ShortCiphertext)
    ensures Load(b, j, Files.Contents([])) == Ok([])
    ensures Load(b, j, Files.Missing) == Ok([])
  {
  }

  /** A decoding error from json.Unmarshal is ignored: whatever records it
      left are loaded as if decoding had succeeded. */
  lemma UnmarshalErrorIgnored(b: Cipher.Backend, j: Json, file: Files.FileRead)
    requires file.Contents? && |file.data| > 0
    requires Cipher.Decrypt(b, file.data).Ok?
    requires !j.unmarshal(Cipher.Decrypt(b, file.data).value).ok
    ensures Load(b, j, file) == Ok(j.unmarshal(Cipher.Decrypt(b, file.data).value).accounts)
  {
  }

  /** `getAllAccounts` on buffers: after a successful load both the
      encrypted file contents and the decrypted JSON are zero. The buffers
      are returned so that their erasure can be stated. */
  method GetAllAccounts(b: Cipher.Backend, j: Json, file: Files.FileRead)
      returns (r: Result<seq<Account>, Fault>, encryptedData: array<byte>, data: array<byte>)
    ensures r == Load(b, j, file)
    ensures r.Ok? && file.Contents? ==> fresh(encryptedData) && encryptedData.Length == |file.data|
    ensures r.Ok? && file.Contents? && |file.data| > 0 ==>
      fresh(data) && data.Length == |Cipher.Decrypt(b, file.data).value|
    ensures r.Ok? ==> IsZero(encryptedData[..]) && IsZero(data[..])
  {
    data := new byte[0];
    match Files.ReadFile(file) {
      case Err(e) =>
        encryptedData := new byte[0];
        r := Err(e);
      case Ok(contents) =>
        encryptedData := NewBuffer(contents);
        if encryptedData.Length == 0 {
          r := Ok([]);
          return;
        }
        var decrypted, key := Cipher.DecryptBuffer(b, encryptedData);
        if decrypted.Err? {
          r := Err(decrypted.error);
          return;
        }
        data := decrypted.value;
        var accounts := j.unmarshal(data[..]).accounts;
        Zero(data);
        Zero(encryptedData);
        r := Ok(accounts);
    }
  }

  /** `saveAccountsToDisk` on buffers: the bytes written are those of Save,
      and afterwards the serialized JSON and the encrypted blob are zero
      (WriteFileRel zeroes the blob, and so does the caller). */
  method SaveAccountsToDisk(b: Cipher.Backend, j: Json, nonce: Cipher.Nonce, accounts: seq<Account>)
      returns (written: Result<Bytes, Fault>, data: array<byte>, encryptedData: array<byte>)
    ensures written == Save(b, j, nonce, accounts)
    ensures written.Ok? ==> fresh(data) && data.Length == |j.marshal(accounts)|
    ensures written.Ok? ==> fresh(encryptedData) && encryptedData.Length == |written.value|
    ensures written.Ok? ==> IsZero(data[..]) && IsZero(encryptedData[..])
  {
    data := NewBuffer(j.marshal(accounts));
    var encrypted, key, nonceBuffer := Cipher.EncryptBuffer(b, nonce, data);
    if encrypted.Err? {
      encryptedData := new byte[0];
      written := Err(encrypted.error);
      return;
    }
    encryptedData := encrypted.value;
    written := WriteFileRel(encryptedData);
    Zero(encryptedData);
    Zero(data);
  }

  /** `WriteFileRel`: what reaches the file, after which the buffer is zero. */
  method WriteFileRel(buf: array<byte>) returns (written: Result<Bytes, Fault>)
    modifies buf
    ensures written == Ok(old(buf[..]))
    ensures IsZero(buf[..])
  {
    written := Ok(buf[..]);
    Zero(buf);
  }
}

=== FILE: strconv.dfy ===
/** Decimal formatting and parsing as the vault uses them: fmt.Sprint of a
    row index, strconv.ParseInt(…, 10, 32) of a row ID and strconv.Atoi of a
    breach count, each with its error result dropped, and the uint32
    conversion of that count. The Go library is not part of this model; its
    documented behaviour is written out here. */
module Strconv {
  import opened Results

  const MinInt32: int := -0x8000_0000
  const MaxInt32: int := 0x7FFF_FFFF
  const MinInt64: int := -0x8000_0000_0000_0000
  const MaxInt64: int := 0x7FFF_FFFF_FFFF_FFFF

  newtype uint32 = x: int | 0 <= x < 0x1_0000_0000

  predicate IsDigit(c: char) {
    '0' <= c <= '9'
  }

  predicate AllDigits(s: string) {
    forall i :: 0 <= i < |s| ==> IsDigit(s[i])
  }

  function DigitChar(d: nat): (c: char)
    requires d < 10
    ensures IsDigit(c)
  {
    ('0' as int + d) as char
  }

  function DigitValue(c: char): (d: nat)
    requires IsDigit(c)
    ensures d < 10
  {
    c as int - '0' as int
  }

  /** Value of a digit string, most significant digit first. */
  function DigitsValue(s: string): nat
    requires AllDigits(s)
    decreases |s|
  {
    if |s| == 0 then 0 else DigitsValue(s[..|s| - 1]) * 10 + DigitValue(s[|s| - 1])
  }

  /** fmt.Sprint of a non-negative int: its decimal digits, without sign or
      leading zeros. */
  function Itoa(n: nat): (s: string)
    ensures |s| > 0 && AllDigits(s)
    ensures |s| == 1 || s[0] != '0'
    decreases n
  {
    if n < 10 then [DigitChar(n)] else Itoa(n / 10) + [DigitChar(n % 10)]
  }

  /** The syntax strconv.ParseInt accepts in base 10: an optional sign, then
      one or more decimal digits. None is a syntax error. */
  function ParseDecimal(s: string): (r: Option<int>)
    ensures r.Some? <==> (|s| > 0 && AllDigits(s)) || (|s| > 1 && (s[0] == '+' || s[0] == '-') && AllDigits(s[1..]))
    ensures r.Some? && |s| > 0 && s[0] == '-' ==> r.value <= 0
    ensures r.Some? && |s| > 0 && s[0] != '-' ==> r.value >= 0
  {
    if |s| > 1 && (s[0] == '+' || s[0] == '-') && AllDigits(s[1..]) then
      var magnitude: int := DigitsValue(s[1..]);
      Some(if s[0] == '-' then -magnitude else magnitude)
    else if |s| > 0 && AllDigits(s) then
      Some(DigitsValue(s))
    else
      None
  }

  /** strconv.ParseInt(s, 10, bits) with its error ignored, the bit size given
      as the range [lo, hi]: 0 on a syntax error, the nearest bound on a range
      error, the value otherwise. */
  function ParseIntLenient(s: string, lo: int, hi: int): (v: int)
    requires lo <= 0 <= hi
    ensures lo <= v <= hi
    ensures ParseDecimal(s).None? ==> v == 0
    ensures ParseDecimal(s).Some? && lo <= ParseDecimal(s).value <= hi ==> v == ParseDecimal(s).value
  {
    match ParseDecimal(s)
    case None => 0
    case Some(n) => if n < lo then lo else if n > hi then hi else n
  }

  /** strconv.Atoi (int is 64 bits wide) with its error ignored. */
  function Atoi(s: string): (v: int)
    ensures MinInt64 <= v <= MaxInt64
  {
    ParseIntLenient(s, MinInt64, MaxInt64)
  }

  /** Go's uint32(v) for an int v: the low 32 bits of its two's complement. */
  function ToUint32(v: int): (u: uint32)
    ensures (u as int - v) % 0x1_0000_0000 == 0
    ensures 0 <= v < 0x1_0000_0000 ==> u as int == v
  {
    (v % 0x1_0000_0000) as uint32
  }

  lemma {:induction false} DigitsValueAppend(s: string, d: nat)
    requires AllDigits(s) && d < 10
    ensures AllDigits(s + [DigitChar(d)])
    ensures DigitsValue(s + [DigitChar(d)]) == DigitsValue(s) * 10 + d
  {
    var t := s + [DigitChar(d)];
    assert t[..|t| - 1] == s;
  }

  /** Reading back what Itoa wrote gives the number. */
  lemma {:induction false} DigitsValueItoa(n: nat)
    ensures DigitsValue(Itoa(n)) == n
    decreases n
  {
    if n >= 10 {
      DigitsValueItoa(n / 10);
      DigitsValueAppend(Itoa(n / 10), n % 10);
    }
  }

  /** Sprint and ParseInt are inverse on the non-negative integers. */
  lemma ParseItoa(n: nat)
    ensures ParseDecimal(Itoa(n)) == Some(n)
  {
    DigitsValueItoa(n);
  }

  /** A row ID written by Sprint parses back to the row index as long as the
      index fits ParseInt's 32-bit range; larger ones saturate. */
  lemma RowIdRoundTrip(n: nat)
    ensures n <= MaxInt32 ==> ParseIntLenient(Itoa(n), MinInt32, MaxInt32) == n
    ensures 0 <= ParseIntLenient(Itoa(n), MinInt32, MaxInt32) <= n
  {
    ParseItoa(n);
  }

  /** The count values on which the dropped errors and the uint32 conversion
      make isPwValid report 0, and a negative count that wraps. */
  lemma CountsThatReadAsZero()
    ensures ToUint32(Atoi("0")) == 0
    ensures ToUint32(Atoi("")) == 0
    ensures ToUint32(Atoi("many")) == 0
    ensures ToUint32(Atoi("-5")) == 0xFFFF_FFFB
  {
    assert DigitsValue("0") == 0;
    assert DigitsValue("5") == 5;
  }

  /** The value of the first five digits of 2^32, one digit at a time. */
  lemma LeadingDigitsOfTwoToThe32()
    ensures AllDigits("42949") && DigitsValue("42949") == 42949
  {
    assert DigitsValue("4") == 4;
    assert "42"[..1] == "4";
    assert DigitsValue("42") == 42;
    assert "429"[..2] == "42";
    assert DigitsValue("429") == 429;
    assert "4294"[..3] == "429";
    assert DigitsValue("4294") == 4294;
    assert "42949"[..4] == "4294";
  }

  /** A count of 2^32 is read in full by Atoi and wraps to 0 in uint32. */
  lemma WrappedCountReadsAsZero()
    ensures ToUint32(Atoi("4294967296")) == 0
  {
    LeadingDigitsOfTwoToThe32();
    assert "429496"[..5] == "42949";
    assert DigitsValue("429496") == 429496;
    assert "4294967"[..6] == "429496";
    assert DigitsValue("4294967") == 4294967;
    assert "42949672"[..7] == "4294967";
    assert DigitsValue("42949672") == 42949672;
    assert "429496729"[..8] == "42949672";
    assert DigitsValue("429496729") == 429496729;
    assert "4294967296"[..9] == "429496729";
    assert DigitsValue("4294967296") == 4294967296;
  }
}

=== FILE: text.dfy ===
/** The parts of Go's `strings` package the breach check relies on:
    Index, Split, Join, ToUpper and TrimSpace. */
module Text {

  /** `sep` occurs in `s` starting at position i. */
  predicate OccursAt(s: string, sep: string, i: int) {
    0 <= i && i + |sep| <= |s| && s[i..i + |sep|] == sep
  }

  /** First occurrence of `sep` in `s` at or after `from`, or -1. */
  function IndexFrom(s: string, sep: string, from: nat): (r: int)
    requires |sep| > 0
    ensures r == -1 || (from <= r && OccursAt(s, sep, r))
    ensures forall j :: from <= j && (r == -1 || j < r) ==> !OccursAt(s, sep, j)
    decreases |s| - from
  {
    if from + |sep| > |s| then -1
    else if s[from..from + |sep|] == sep then from
    else IndexFrom(s, sep, from + 1)
  }

  /** strings.Index: the position of the first occurrence of `sep`, -1 if none. */
  function Index(s: string, sep: string): (r: int)
    requires |sep| > 0
    ensures r == -1 || OccursAt(s, sep, r)
    ensures forall j :: 0 <= j && (r == -1 || j < r) ==> !OccursAt(s, sep, j)
  {
    IndexFrom(s, sep, 0)
  }

  /** strings.Join. */
  function Join(parts: seq<string>, sep: string): string
  {
    if |parts| == 0 then ""
    else if |parts| == 1 then parts[0]
    else parts[0] + sep + Join(parts[1..], sep)
  }

  /** An occurrence inside a prefix is an occurrence in the whole string. */
  lemma OccursInPrefix(s: string, sep: string, i: nat, j: int)
    requires i <= |s|
    ensures OccursAt(s[..i], sep, j) ==> OccursAt(s, sep, j)
  {
    if OccursAt(s[..i], sep, j) {
      assert s[..i][j..j + |sep|] == s[j..j + |sep|];
    }
  }

  /** strings.Split with a non-empty separator: the text between successive
      non-overlapping occurrences of `sep`, scanning left to right. Joining
      the pieces gives back `s`, and no piece holds `sep`. */
  function Split(s: string, sep: string): (parts: seq<string>)
    requires |sep| > 0
    ensures |parts| >= 1
    ensures Join(parts, sep) == s
    ensures forall k :: 0 <= k < |parts| ==> Index(parts[k], sep) == -1
    ensures Index(s, sep) == -1 ==> parts == [s]
    ensures Index(s, sep) >= 0 ==> |parts| >= 2 && parts[0] == s[..Index(s, sep)]
    ensures Index(s, sep) >= 0 ==> parts[1..] == Split(s[Index(s, sep) + |sep|..], sep)
    decreases |s|
  {
    var i := Index(s, sep);
    if i < 0 then [s]
    else
      var rest := Split(s[i + |sep|..], sep);
      var head := s[..i];
      assert s == head + sep + s[i + |sep|..] by {
        assert s[i..i + |sep|] == sep;
      }
      forall j | 0 <= j
        ensures !OccursAt(head, sep, j)
      {
        OccursInPrefix(s, sep, i, j);
      }
      [head] + rest
  }

  /** A separator whose first character is absent from `s` does not occur in it. */
  lemma IndexAbsent(s: string, sep: string)
    requires |sep| > 0 && sep[0] !in s
    ensures Index(s, sep) == -1
  {
    forall j | 0 <= j
      ensures !OccursAt(s, sep, j)
    {
      if j + |sep| <= |s| {
        assert s[j..j + |sep|][0] == s[j];
      }
    }
  }

  /** Splitting on a one-character separator yields a second piece exactly
      when that character occurs. */
  lemma SplitOnCharHasTwoParts(s: string, c: char)
    ensures |Split(s, [c])| >= 2 <==> c in s
  {
    var i := Index(s, [c]);
    if i >= 0 {
      assert s[i..i + 1] == [c];
      assert s[i] == c;
    }
    if c in s {
      var j :| 0 <= j < |s| && s[j] == c;
      assert s[j..j + 1] == [c];
      assert OccursAt(s, [c], j);
    }
  }

  /** A character first found at position i (or nowhere, when i == |s|)
      is what Index reports. */
  lemma IndexOfChar(s: string, c: char, i: nat)
    requires i <= |s| && c !in s[..i] && (i == |s| || s[i] == c)
    ensures Index(s, [c]) == if i < |s| then i else -1
  {
    forall j | 0 <= j < i
      ensures !OccursAt(s, [c], j)
    {
      assert s[..i][j] == s[j];
      assert s[j..j + 1] == [s[j]];
    }
    if i < |s| {
      assert s[i..i + 1] == [c];
      assert OccursAt(s, [c], i);
    }
  }

  /** The first piece of splitting on a one-character separator is the text
      before the first occurrence of that character. */
  lemma SplitOnCharHead(s: string, c: char, i: nat)
    requires i <= |s| && c !in s[..i] && (i == |s| || s[i] == c)
    ensures Split(s, [c])[0] == s[..i]
  {
    IndexOfChar(s, c, i);
    if i == |s| {
      assert s[..i] == s;
    }
  }

  /** Upper-casing of one character, restricted to the ASCII letters (the
      only letters hexadecimal text contains). */
  function UpperChar(c: char): char {
    if 'a' <= c <= 'z' then (c as int - 'a' as int + 'A' as int) as char else c
  }

  /** strings.ToUpper on ASCII text. */
  function ToUpper(s: string): (u: string)
    ensures |u| == |s|
    ensures forall i :: 0 <= i < |s| ==> u[i] == UpperChar(s[i])
  {
    seq(|s|, i requires 0 <= i < |s| => UpperChar(s[i]))
  }

  /** unicode.IsSpace. */
  predicate IsSpace(c: char) {
    var n := c as int;
    n == 0x20 || (0x09 <= n <= 0x0D) || n == 0x85 || n == 0xA0 || n == 0x1680
    || (0x2000 <= n <= 0x200A) || n == 0x2028 || n == 0x2029 || n == 0x202F
    || n == 0x205F || n == 0x3000
  }

  function TrimLeft(s: string): (t: string)
    ensures |t| <= |s|
    ensures |t| == 0 || !IsSpace(t[0])
  {
    if |s| > 0 && IsSpace(s[0]) then TrimLeft(s[1..]) else s
  }

  function TrimRight(s: string): (t: string)
    ensures |t| <= |s|
    ensures |t| == 0 || !IsSpace(t[|t| - 1])
  {
    if |s| > 0 && IsSpace(s[|s| - 1]) then TrimRight(s[..|s| - 1]) else s
  }

  /** strings.TrimSpace: drop leading and trailing white space. */
  function TrimSpace(s: string): string {
    TrimRight(TrimLeft(s))
  }

  /** Text without white space is left as it is by TrimSpace. */
  lemma TrimSpaceNoSpace(s: string)
    requires forall i :: 0 <= i < |s| ==> !IsSpace(s[i])
    ensures TrimSpace(s) == s
  {
  }
}
